=== FILE: README.md ===
# Event Horizon chat host: authentication, live connections and request limits

A Dafny model of the core of the Event Horizon chat host. The host is a FastAPI
server that relays end-to-end encrypted messages between users known by their
DIDs (decentralised identifiers, strings that start with `did:`). The model covers
the following parts:

- **`Auth`** (`auth.dfy`) models the credential manager `AuthManager`.
  - Its state is a current signing key, a bounded set of previous keys, a revoked-token set and a blacklist.
  - It issues, verifies, revokes and blacklists access tokens, runs the periodic sweep of the revoked set and rotates keys.
  - It also holds the DID-signature helpers and the websocket authentication gate.
  - A token is modelled as either the one canonical HS256 encoding of a payload under a key or any other string. Decoding succeeds only under the key that signed it, and only if PyJWT's other claim checks pass.
- **`Registry`** (`registry.dfy`) models the live-connection manager `ConnectionManager`.
  - It keeps two maps keyed by DID, one to the socket and one to the metadata.
  - Its operations are connect, disconnect, personal send, broadcast, the heartbeat refresh and the stale sweep.
- **`Endpoint`** (`endpoint.dfy`) models the websocket handler.
  - It runs authentication and then connect, each with its close code.
  - It then runs the receive loop, which dispatches each message type to a reply.
  - It ends with the final disconnect.
- **`RateLimit`** (`ratelimit.dfy`) models the sliding one-minute window of `RateLimitMiddleware`, with its check and remaining-allowance computations.
- **`MessageService`** (`messages.dfy`) models the paging of a user's message history.
- **`Schemas`** (`schemas.dfy`) models the DID constraints of the two request models.
- **`Legacy`** (`legacy.dfy`) models the standalone application's limit clamp and its simpler connection manager.
- **`Wrappers`**, **`Json`** and **`Strings`** are shared helpers.
  - They provide option and result types and JSON values as the handlers see them.
  - They give Python's `dict.get`, `str.startswith` and string ordering.

Every clock reads one integer count of seconds. Some things are passed in as parameters instead of being modelled:

- the HMAC primitive;
- ISO-8601 parsing;
- new rotation keys;
- whether a socket accepts or a send reaches its peer.

In a few places the code's own comments or names suggest a behaviour the code does not have. The model follows what the code does:

- **Key eviction.** The comment at `app/core/auth.py:52` says "Keep only last N keys" and the variable at `:54` is named `oldest_key`. But `min` orders keys lexicographically, so rotation evicts the smallest retained key, not the one retired longest ago. The key just retired can therefore be evicted at once (`Auth.RotationCanEvictRetiredKey`).
- **Heartbeat settings.** The stale-connection timeout and the heartbeat interval are not defined in the settings class. The timeout is therefore a parameter of `Registry.SweepStale`. In the code, the heartbeat loop raises while evaluating the argument of its first `sleep`, before any `await`. Its handler logs the error and loops again without ever yielding. Once the task runs it spins forever and blocks the whole event loop, not just the heartbeat broadcast and the stale sweep.
- **Message store.** The message query filters on columns the message table does not declare, so every call raises (see Findings). The module that holds `get_user_messages` does not compile at all, because of a syntax error in `send_private_message`. `MessageService.Fetch` and `MessageService.GetUserMessages` model both as evidently intended.
- **Python version.** The line of `app/core/auth.py` that computes the `jti` claim nests double quotes inside an f-string. Python versions before 3.12 refuse to compile it.

## Model

| member | source | states |
|---|---|---|
| Auth.Init | app/core/auth.py:22-32 | A new manager holds the configured key as current, no previous keys and two empty token sets, with the last rotation set to now |
| Auth.Decode | app/core/auth.py:143-147 | Decoding under a key succeeds exactly for a token that key signed whose `iat` (if any) is an integer, whose `nbf` (if any) is an integer not after now and whose `aud` (if any) is falsy. When expiry is verified, `exp` must also be absent or an integer still in the future. It yields the token's payload |
| Auth.DecodeAny | app/core/auth.py:149-156 | The loop over previous keys succeeds iff some key in the set decodes the token, and yields the token's own payload |
| Auth.DecodeRetained | app/core/auth.py:187-197 | Trying the current key and then the previous keys succeeds iff a retained key signed the token and the claim checks pass, subject to the expiry condition |
| Auth.ValidatePayload | app/core/auth.py:165-182 | A payload passes iff its type is `access` and its `exp` is an integer not before the clock. A missing or non-integer `exp` fails; a passing payload comes back unchanged |
| Auth.VerifyAccessToken | app/core/auth.py:129-163 | Verification succeeds iff `Accepts` holds: the token is on neither list, a retained key signed it, the `iat`/`nbf`/`aud` checks pass, it is an access token and it expires strictly after now. The payload returned is the token's own |
| Auth.ListedNeverVerifies | app/core/auth.py:132-140 | A blacklisted or revoked token is refused whatever it would decode to |
| Auth.IssueAsWritten | app/core/auth.py:109-127 | The static method as written fails with a NameError on `self` for every input |
| Auth.IssueAccessToken | app/core/auth.py:110-127 | Issuing with the current key copies the caller's claims and forces `exp`, `iat`, `jti` and `type`. `exp` is now plus the delta when the delta is truthy, else now plus the configured minutes |
| Auth.IssuedTokenVerifies | app/core/auth.py:109-182 | A freshly issued token with a positive lifetime verifies at time `later` iff `later` is before its expiry and the caller's claims carry no truthy `aud` and no `nbf` after `later` |
| Auth.IssueAsWrittenYieldsNoToken | app/core/auth.py:109-127 | Where the intended issuer yields a token that verifies at once (claims without `aud` or a future `nbf`), the method as written yields none |
| Auth.CleanupTime | app/core/auth.py:228-239 | The scheduled cleanup fires, at the `exp` time, only when `exp` is an integer in the future. A missing `exp` counts as time 0 |
| Auth.RevokeToken | app/core/auth.py:184-216 | Revocation succeeds iff a retained key signed the token, the `iat`/`nbf`/`aud` checks pass (expiry ignored) and its payload is non-empty. Only then is exactly that token added and its cleanup scheduled; otherwise nothing changes |
| Auth.DiscardRevoked | app/core/auth.py:234-236 | The cleanup removes just that token from the revoked set and touches nothing else |
| Auth.RevokedThenRefused | app/core/auth.py:184-212 | Revoking a retained-key token with a non-empty payload succeeds iff the `iat`/`nbf`/`aud` checks pass, even when it has expired; once revoked it is refused at every time |
| Auth.CleanupNeverReadmits | app/core/auth.py:228-239 | Once the scheduled cleanup has forgotten a revoked token, that token still never verifies, because the token has expired by then |
| Auth.BlacklistToken | app/core/auth.py:218-226 | Blacklisting always succeeds, adds exactly that raw token and changes nothing else |
| Auth.BlacklistedNeverVerifies | app/core/auth.py:132-135 | A blacklisted token verifies at no time |
| Auth.PeriodicSweepAsWritten | app/core/auth.py:246-270 | The sweep as written keeps a revoked token iff the current key decodes it to an unexpired integer `exp`. The rest of the state is unchanged |
| Auth.SweepAsWrittenReadmits | app/core/auth.py:253-265 | Counterexample: a token revoked while signed by a previous key is refused before the sweep and verifies again after it |
| Auth.PeriodicSweep | app/core/auth.py:246-270 | The corrected sweep keeps a revoked token iff some retained key signed it and its integer `exp` has not passed |
| Auth.SweepNeverReadmits | app/core/auth.py:253-265 | After the corrected sweep, no token that was revoked verifies at the sweep's time or later |
| Auth.Rotate | app/core/auth.py:41-64 | Rotation makes the new key current, retires the old one and empties both token sets. It keeps the previous-key bound. When the pool is over the limit it drops exactly one key, and that key sorts below every key kept |
| Auth.RetiredKeySurvives | app/core/auth.py:44-55 | The key just retired is lost iff the pool is over the limit and that key is the pool's minimum |
| Auth.RotationCanEvictRetiredKey | app/core/auth.py:52-55 | Counterexample: with the default limit, retiring `a` into {`b`,`c`,`d`} evicts `a`, so a token valid a moment before stops verifying |
| Auth.RotationForgivesBlacklist | app/core/auth.py:59-61 | A blacklisted live token signed by the retired key is refused before rotation and accepted after it, if that key was kept |
| Auth.GetKeyRotationInfo | app/core/auth.py:97-107 | The next rotation is one interval after the last. The key counts are the number of previous keys and that number plus one, bounded by the limit plus one |
| Auth.CreateDidSignature | app/core/auth.py:272-281 | The signature is the MAC of `did:timestamp` under the secret. Its partner is `Auth.SignatureRoundTrip`, which shows it verifies under the same secret |
| Auth.VerifyDidSignature | app/core/auth.py:283-287 | A signature is accepted iff it equals the MAC of `did:timestamp` under the secret |
| Auth.SignatureRoundTrip | app/core/auth.py:272-287 | A signature created with a secret verifies with that secret |
| Auth.AuthenticateWebsocket | app/core/auth.py:289-351 | The gate's decisions: (1) a DID without the `did:` prefix is refused; (2) a given token admits iff it verifies and carries the same DID; (3) otherwise a given signature and timestamp admit iff the time parses, is at most 300 s old and the MAC under the current key matches; (4) otherwise the answer is the debug flag |
| Auth.SignaturePathIgnoresTokenSets | app/core/auth.py:320-338 | The signature path gives the same answer whatever the revoked set and blacklist hold |
| Auth.IssuedTokenAdmits | app/core/auth.py:304-318 | A token issued for a DID admits that DID iff the time is before the token's expiry and the caller's claims carry no truthy `aud` and no `nbf` after that time |
| Strings.Smallest | app/core/auth.py:54 | Python's `min` over a non-empty set of keys: a member that sorts below every other member |
| Registry.EmptyValid | app/websocket/manager.py:20-22 | The empty manager satisfies the invariant that both maps share their keys |
| Registry.Disconnect | app/websocket/manager.py:60-74 | Disconnect removes the DID from both maps and leaves every other entry as it was |
| Registry.DisconnectIdempotent | app/websocket/manager.py:60-74 | Disconnecting twice equals disconnecting once, and the invariant survives |
| Registry.Admit | app/websocket/manager.py:34-47 | The new socket replaces any old one, with fresh metadata (`connected_at == last_heartbeat == now`, count 0). Other entries are untouched |
| Registry.SendPersonal | app/websocket/manager.py:76-99 | A send succeeds iff the DID is in both maps and the peer receives it. The count is bumped first, a failed send disconnects the DID, and an absent DID changes nothing |
| Registry.Connect | app/websocket/manager.py:29-58 | A failed accept changes nothing and answers false. Otherwise the socket held before is the one closed, and the welcome goes through the personal send |
| Registry.ConnectEffect | app/websocket/manager.py:29-58 | A successful connect answers true and keeps the invariant. With a delivered welcome the DID holds the new socket, count 1. With a failed welcome it has no entry. Other DIDs are unaffected |
| Registry.UpdateHeartbeat | app/websocket/manager.py:184-188 | Only the `last_heartbeat` of an existing entry moves; an absent DID is a no-op |
| Registry.DisconnectAll | app/websocket/manager.py:122-124 | Both maps lose exactly the given DIDs; surviving entries are unchanged |
| Registry.SweepStale | app/websocket/manager.py:190-204 | The sweep evicts exactly the DIDs whose heartbeat gap exceeds the timeout and keeps every other entry unchanged |
| Registry.HeartbeatKeepsAlive | app/websocket/manager.py:184-199 | A fresh connection is stale iff the time since connecting exceeds the timeout. A heartbeat within the timeout keeps it from being stale |
| Registry.BroadcastBound | app/websocket/manager.py:101-126 | The delivered count is at most the number of connections, less one when the excluded DID is connected |
| Registry.Deliver | app/websocket/manager.py:109-120 | The loop reaches exactly the non-excluded DIDs whose send succeeds, fails exactly those whose send fails, and counts the successes |
| Registry.Broadcast | app/websocket/manager.py:101-126 | Broadcast returns the number of deliveries, and an empty exclusion excludes nobody. It then disconnects exactly the DIDs whose send failed, keeping the invariant |
| Registry.ConnectionInfo | app/websocket/manager.py:128-133 | Connection info is present iff the DID has metadata, and it is that metadata |
| Registry.ConnectedUsers | app/websocket/manager.py:135-138 | Under the invariant, the connected users are exactly the DIDs that have connection info |
| Registry.ConnectionCount | app/websocket/manager.py:135-143 | The connection count is the size of the connected-user set |
| Registry.OperationsPreserveValid | app/websocket/manager.py:29-99 | Connect, disconnect, personal send and heartbeat refresh all preserve the invariant that both maps share their keys |
| Endpoint.Dispatch | app/websocket/endpoints.py:51-102 | Malformed text gets the invalid-JSON error reply. The loop ends iff the value is not an object, or a ping or status carries non-object data. Only a heartbeat refreshes, and it sends nothing. Replies are of type pong, status, echo or error |
| Endpoint.PingEchoesTimestamp | app/websocket/endpoints.py:62-70 | A ping's `data.timestamp` comes back in a pong |
| Endpoint.StatusReportsConnection | app/websocket/endpoints.py:72-82 | A status request is answered with `connected: true`, the connection's DID and the request's timestamp |
| Endpoint.OthersEchoed | app/websocket/endpoints.py:84-91 | Any other or missing type is echoed with its data (an empty object when absent) and its top-level timestamp |
| Endpoint.RunFrames | app/websocket/endpoints.py:45-112 | The loop ends with an error iff some frame's handling raises, either in dispatch or in the send of its reply. The peer receives the replies of the frames before the first such frame, in order. Only heartbeat times change in the registry |
| Endpoint.RepliesMatchFrames | app/websocket/endpoints.py:93-102 | While the error replies get through, a run of malformed frames never ends the loop, and each one is answered with the error reply |
| Endpoint.NoHeartbeatNoChange | app/websocket/endpoints.py:57-60 | A loop over frames without a heartbeat leaves the registry unchanged |
| Endpoint.LastHeartbeatStored | app/websocket/endpoints.py:57-60 | The stored `last_heartbeat` is the arrival time of the last heartbeat frame, provided no earlier frame ended the loop |
| Endpoint.RunSessionAsWritten | app/websocket/endpoints.py:26-123 | Failed auth closes with 1008 and failed connect with 1011. After a connect, the session closes with 1011 iff some frame's handling raised, and the peer gets the loop's replies. In every case the DID ends with no entry, whoever held it |
| Endpoint.FailedAuthEvictsLiveConnection | app/websocket/endpoints.py:29-123 | Counterexample: a client that fails authentication for `did:x` removes the live connection of `did:x` held by another client |
| Endpoint.ReplacedConnectionEvicted | app/websocket/endpoints.py:121-123 | When another socket now holds the DID, the final disconnect as written removes it, while the corrected one leaves the registry unchanged |
| Endpoint.DisconnectOwn | app/websocket/endpoints.py:121-123 | The corrected final step removes the entry only while it still holds this session's socket |
| Endpoint.RunSession | app/websocket/endpoints.py:26-123 | Close codes as in the handler, with 1011 after a connect iff some frame's handling raised. Failed auth or connect leaves the registry unchanged. A session that connected leaves no entry for its DID. Other DIDs and the invariant are preserved |
| Endpoint.FailedSessionKeepsLiveConnection | app/websocket/endpoints.py:33-41 | A session that fails auth or connect leaves an existing connection of its DID in place |
| RateLimit.NewLimiter | app/core/middleware.py:20-23 | The limit is the argument when it is truthy, else the configured `RATE_LIMIT_PER_MINUTE` setting, and no client has history |
| RateLimit.Recent | app/core/middleware.py:59-63 | Pruning keeps exactly the times less than 60 s old |
| RateLimit.RecentCounts | app/core/middleware.py:59-63 | Pruning keeps every occurrence of a time less than 60 s old and drops every other one, so repeated times are counted as often as they were stored |
| RateLimit.RecentAppend | app/core/middleware.py:59-63 | Pruning distributes over concatenation |
| RateLimit.RecentTwice | app/core/middleware.py:59-63 | Pruning at an earlier time and then at a later one equals pruning at the later one |
| RateLimit.CheckRateLimit | app/core/middleware.py:51-71 | A request is admitted iff fewer than `limit` recent times are stored. The client's list becomes the pruned list, plus now when admitted. Other clients are untouched, and an admitted list never exceeds the limit |
| RateLimit.Remaining | app/core/middleware.py:73-84 | An unseen client has the full limit. Otherwise the result lies in [0, limit], and it is positive iff the next check would admit |
| RateLimit.RemainingFallsPerAdmission | app/core/middleware.py:51-84 | For a known client, each admitted request lowers the reported remaining count by exactly one |
| RateLimit.CheckKeepsBound | app/core/middleware.py:65-71 | If every stored list is within the limit, it stays so after a check |
| RateLimit.SlidingWindow | app/core/middleware.py:51-71 | For one client checked at non-decreasing times, the stored list is exactly the admitted times of the last minute, and never more than `limit` of them |
| MessageService.Fetch | app/database/Message_database.py:62-80 | The store returns the first `n` messages of the newest-first history, or all of them for a negative `n` |
| MessageService.FetchAsWritten | app/database/Message_database.py:62-80 | The query as written fails with an AttributeError on every call, because it names columns the message table lacks |
| MessageService.FetchAsWrittenLosesHistory | app/database/Message_database.py:62-80 | Where the intended query returns the newest message of a non-empty history, the query as written returns nothing |
| MessageService.GetUserMessages | app/services/message_service.py:56-96 | The page is `fetched[offset : offset+limit]` (an offset of 0 or less skips nothing). The total is the page's length, and limit and offset are echoed |
| MessageService.PagesTile | app/services/message_service.py:65-73 | With the endpoint's bounds, a page is the history window at its offset, and consecutive pages concatenate to the larger page |
| MessageService.MessageCountAtMostOne | app/api/v1/endpoints/messages.py:63-72 | The message-count endpoint reports 0 for an empty history and 1 otherwise |
| Schemas.CheckDid | app/models/schemas.py:11-18 | A DID passes iff its length is 5..255 and it starts with `did:`. Too short gives TooShort and too long gives TooLong, checked before the prefix; an in-range DID without the prefix gives MissingPrefix |
| Schemas.ValidDidHasSuffix | app/models/schemas.py:11-18 | An accepted DID has something after its `did:` prefix |
| Schemas.NewKeyExchangeRequest | app/models/schemas.py:9-18 | A request builds iff its DID passes, and then holds its fields unchanged; otherwise one `did` error is reported |
| Schemas.NewPrivateMessageRequest | app/models/schemas.py:36-48 | A request builds iff both DIDs pass. Each failing DID field, and only those, is reported |
| Schemas.OneRuleForBothModels | app/models/schemas.py:9-48 | A message request's DIDs pass exactly when each would pass a key exchange |
| Legacy.SafeLimit | app/__main__.py:109 | The clamp lies in 1..1000. None or 0 gives 100, negatives give 1, large values give 1000, and in-range values are kept |
| Legacy.SafeLimitIdempotent | app/__main__.py:109 | Clamping a clamped limit changes nothing |
| Legacy.LegacyConnect | app/__main__.py:25-28 | A failed accept fails without change. Otherwise the username maps to the new socket, the old one is overwritten without a close, and others are kept |
| Legacy.LegacyDisconnect | app/__main__.py:30-33 | Disconnect removes the username if present and nothing else |
| Legacy.LegacyDisconnectIdempotent | app/__main__.py:30-33 | Disconnecting twice equals disconnecting once |
| Legacy.LegacySendTarget | app/__main__.py:35-39 | The message goes to the username's socket iff it is connected; the map is unchanged |
| Legacy.LegacyConnectThenDisconnect | app/__main__.py:25-39 | After a connect, sends go to the new socket, and a disconnect leaves the map as disconnecting beforehand would |

## Left out

- The background tasks are not modelled: the rotation timer, the cleanup loops and the heartbeat loop. Their single steps are modelled, and any interleaving of them is a sequence of these steps:
  - rotation: `Auth.Rotate`;
  - the periodic sweep: `Auth.PeriodicSweepAsWritten` as written and `Auth.PeriodicSweep` as corrected;
  - the scheduled cleanup: `Auth.DiscardRevoked`;
  - the heartbeat pass: `Registry.Broadcast` and `Registry.SweepStale`.
- The asyncio locks and concurrency are not modelled; each operation is one atomic step.
- Cryptography is abstract:
  - HS256 signing is a perfect MAC;
  - HMAC-SHA256 is the `mac` parameter, and `compare_digest` is string equality;
  - `secrets.token_urlsafe` is the `newKey` parameter;
  - the MD5 digest of the `jti` claim is the `digest` parameter.
- The SHA-256 key hash reported by `get_key_rotation_info` is not modelled.
- Auth.AuthenticateWebsocket: ISO-8601 parsing is the `parseTime` parameter. An offset-aware timestamp, which makes the naive-minus-aware subtraction raise, is treated as unparsable.
- Auth.VerifyAccessToken: the host mixes local-time and UTC datetimes (`fromtimestamp` against `utcnow`); the model assumes one clock. PyJWT's `iat`, `nbf` and `aud` checks are modelled with the gaps named on the `Auth.Decode` line.
- Auth.Decode: `int()` coercion of claims is not modelled. PyJWT also accepts an `exp`, `nbf` or `iat` given as a boolean or a numeric string; the model treats those as non-integers and refuses the token. The future-`iat` refusal and the string checks on `sub` and `jti` of recent PyJWT releases are not modelled either. The model refuses a truthy `aud`, as recent releases do; older releases differ on a falsy one.
- Auth.DecodeRetained: inherits the claim-check gaps of `Auth.Decode`.
- Auth.RevokeToken: inherits the claim-check gaps of `Auth.Decode`, so a token with a numeric-string `nbf` that the source revokes is refused by the model.
- Auth.BlacklistToken: the blacklist and the revoked set hold raw strings. PyJWT accepts more than one spelling of a token, for example a padded segment or a signature whose last character differs only in unused bits. A listed token can therefore be presented again in another spelling and verify. The model gives each token one encoding, so `Auth.ListedNeverVerifies` and `Auth.BlacklistedNeverVerifies` hold only for the canonical spelling.
- Auth.ListedNeverVerifies: holds for the exact string listed, not for the other spellings PyJWT decodes to the same payload (see the `Auth.BlacklistToken` line).
- Auth.BlacklistedNeverVerifies: as for `Auth.ListedNeverVerifies`, other spellings of a blacklisted token are not covered.
- Auth.RevokedThenRefused: as for `Auth.ListedNeverVerifies`, other spellings of a revoked token are not covered.
- Times are integer seconds. The rate limiter's float `time.time()` and fractional JSON numbers are not modelled.
- Registry.SendPersonal: the message body is not modelled, only whether the send reaches the peer.
- Endpoint.RunFrames: only text frames are modelled. A binary frame makes `receive_text` raise a KeyError, so the source ends the loop with close code 1011 and then runs the final disconnect. That is the same outcome as a frame whose handling fails (`Endpoint.Fails`).
- Logging and HTTP responses are not modelled: the 429 JSON body and the rate-limit headers.
- `cleanup` and `stop` only cancel tasks and close sockets, so they are not modelled.
- `send_private_message` of the message service is not modelled. A dict entry written as a keyword argument is a syntax error, so the file does not compile.
- MessageService.Fetch: models the intended query over the `sender` and `recipient` columns, labelled `sender_did` and `recipient_did` in the rows it returns, as `get_user_messages` reads them. The query as written raises on every call, as `MessageService.FetchAsWritten` shows.
- MessageService.GetUserMessages: models the paging as written. The module holding it does not compile, so it is never callable as shipped.
- Auth.ValidatePayload: Python datetimes only cover years 1 to 9999, and this range is not modelled. `fromtimestamp` raises for an `exp` beyond it, so the source refuses tokens the model accepts.
- Auth.VerifyAccessToken: the datetime range is not modelled. It inherits the gap from the payload check, so a live token whose `exp` lies past year 9999 verifies in the model but not in the source.
- Auth.IssueAccessToken: the datetime range is not modelled. Adding a delta that reaches past year 9999 raises OverflowError in the source, while the model issues a token.
- Auth.CleanupTime: the datetime range is not modelled. For an `exp` past year 9999 the source's cleanup task raises and never fires, while the model schedules it.
- Auth.PeriodicSweepAsWritten: the datetime range is not modelled. The source's bare `except` also drops tokens whose `exp` lies past year 9999, which the model keeps.
- The database layer is not modelled apart from the newest-first `LIMIT` query (`MessageService.Fetch`).
- The legacy module's HTTP handlers and storage calls are not modelled beyond the limit clamp, as they only forward to the database.
- The legacy `send_personal_message` is modelled as the lookup of its target (`Legacy.LegacySendTarget`); the write to the socket is I/O.

## Findings

| source | as written | input that shows it | evidently intended | confidence | as-written member | corrected member |
|---|---|---|---|---|---|---|
| app/core/auth.py:109-127 | `create_access_token` is a static method but signs with `self.current_secret_key`, so every call raises NameError | any call, e.g. `create_access_token({"did": "did:x"})` | sign with the manager's current key and return a token that verifies until its `exp` | not executed | Auth.IssueAsWritten, Auth.IssueAsWrittenYieldsNoToken | Auth.IssueAccessToken, Auth.IssuedTokenVerifies |
| app/core/auth.py:253-265 | the periodic sweep decodes revoked tokens only under the current key and drops any it cannot decode, even ones signed by a previous key that are still valid | a token with `exp` 1000 signed by previous key `k1`, revoked; sweep at time 10 with current key `k2` | keep a revoked token while any retained key decodes it and it has not expired, so revocation is never undone early | not executed | Auth.PeriodicSweepAsWritten, Auth.SweepAsWrittenReadmits | Auth.PeriodicSweep, Auth.SweepNeverReadmits |
| app/database/Message_database.py:62-80 | the query filters on `PrivateMessage.sender_did` and `PrivateMessage.recipient_did`, but the table declares `sender` and `recipient`, so building it raises AttributeError | any call, e.g. `get_private_messages("did:x", 100)` | filter on the declared columns and return the newest messages first | not executed | MessageService.FetchAsWritten, MessageService.FetchAsWrittenLosesHistory | MessageService.Fetch, MessageService.PagesTile |
| app/websocket/endpoints.py:121-123 | the handler's `finally` disconnects by DID even when authentication or connect failed, or a newer connection replaced this one | client B fails authentication for `did:x` while client A is connected as `did:x` | remove only the entry this session registered | not executed | Endpoint.RunSessionAsWritten, Endpoint.FailedAuthEvictsLiveConnection, Endpoint.ReplacedConnectionEvicted | Endpoint.RunSession, Endpoint.FailedSessionKeepsLiveConnection, Endpoint.DisconnectOwn |

=== FILE: auth.dfy ===
/**
 * The credential manager (`AuthManager`): a current signing key, a bounded set of
 * previous keys, a revoked-token set and a blacklist, with the operations that issue,
 * verify, revoke, blacklist, sweep and rotate, plus the connection auth gate.
 *
 * Cryptography is abstracted. A token is either the HS256 encoding of a payload under
 * a key or some other string, and decoding succeeds only under the key that signed it
 * (a MAC nobody can forge). The DID-signature HMAC and ISO-8601 parsing are passed in
 * as functions. Every time is one integer clock in seconds.
 */
module Auth {
  import opened Wrappers
  import opened Json
  import opened Strings

  type Key = string
  type Payload = map<string, Json>

  /**
   * A bearer token as the raw string a client presents. Each signed payload has exactly
   * one encoding here; the other spellings PyJWT also accepts are not modelled.
   */
  datatype Token =
    | Signed(payload: Payload, key: Key)   // jwt.encode(payload, key, "HS256")
    | Unsigned(text: string)               // any string that is not such an encoding

  /** The settings the manager reads. */
  datatype Config = Config(
    maxPreviousKeys: int,
    accessTokenExpireMinutes: int,
    rotationIntervalHours: int,
    debug: bool)

  /** The values of `Settings` when no environment override is present. */
  const Defaults := Config(3, 30, 24, false)

  /** Seconds a DID signature's timestamp may lag the clock. */
  const SignatureWindow := 5 * 60

  datatype AuthState = AuthState(
    current: Key,
    previous: set<Key>,
    revoked: set<Token>,
    blacklist: set<Token>,
    lastRotation: int)

  /** The manager as constructed: the configured key, nothing retired, both token sets empty, the rotation clock started. */
  function Init(key: Key, now: int): (st: AuthState)
    ensures st.current == key && st.previous == {}
    ensures st.revoked == {} && st.blacklist == {}
    ensures st.lastRotation == now
  {
    AuthState(key, {}, {}, {}, now)
  }

  /** The bound rotation keeps on the retired keys. */
  ghost predicate Bounded(st: AuthState, cfg: Config) {
    |st.previous| <= cfg.maxPreviousKeys
  }

  // ---------------------------------------------------------------------------
  // Decoding
  // ---------------------------------------------------------------------------

  /** The `exp` claim PyJWT accepts when it verifies expiry: absent, or an integer still in the future. */
  predicate ExpClaimLive(p: Payload, now: int) {
    "exp" !in p || (p["exp"].JInt? && now < p["exp"].n)
  }

  /** With no audience requested, PyJWT refuses a token that names a (truthy) audience. */
  predicate NoAudience(p: Payload) {
    "aud" !in p || !Truthy(p["aud"])
  }

  /** An `nbf` claim, when present, is an integer that is not after `now`. */
  predicate NotBeforePassed(p: Payload, now: int) {
    "nbf" !in p || (p["nbf"].JInt? && p["nbf"].n <= now)
  }

  /** An `iat` claim, when present, is an integer. */
  predicate IssuedAtWellFormed(p: Payload) {
    "iat" !in p || p["iat"].JInt?
  }

  /** The registered claims PyJWT checks on every decode, whether or not expiry is verified. */
  predicate OtherClaimsPass(p: Payload, now: int) {
    NoAudience(p) && NotBeforePassed(p, now) && IssuedAtWellFormed(p)
  }

  /**
   * `jwt.decode(t, k)`: the signature, then `iat`, `nbf` and `aud`, and `exp` only when
   * `verifyExp` holds.
   */
  function Decode(t: Token, k: Key, now: int, verifyExp: bool): (r: Option<Payload>)
    ensures r.Some? <==> && t.Signed? && t.key == k && OtherClaimsPass(t.payload, now)
                         && (verifyExp ==> ExpClaimLive(t.payload, now))
    ensures r.Some? ==> r.value == t.payload
  {
    match t
    case Unsigned(_) => None
    case Signed(p, signer) =>
      if signer != k then None
      else if "iat" in p && !p["iat"].JInt? then None
      else if "nbf" in p && !(p["nbf"].JInt? && p["nbf"].n <= now) then None
      else if verifyExp && "exp" in p && !(p["exp"].JInt? && now < p["exp"].n) then None
      else if "aud" in p && Truthy(p["aud"]) then None
      else Some(p)
  }

  /** The loop over a set of keys that stops at the first key the token decodes under. */
  function DecodeAny(t: Token, keys: set<Key>, now: int, verifyExp: bool): (r: Option<Payload>)
    ensures r.Some? <==> exists k :: k in keys && Decode(t, k, now, verifyExp).Some?
    ensures r.Some? ==> t.Signed? && r.value == t.payload
  {
    if t.Signed? && t.key in keys then Decode(t, t.key, now, verifyExp) else None
  }

  /** A token some retained key signed. */
  predicate SignedByRetained(st: AuthState, t: Token) {
    t.Signed? && (t.key == st.current || t.key in st.previous)
  }

  /** Decoding as `verify_access_token` and `revoke_token` do it: current key first, then each previous key. */
  function DecodeRetained(st: AuthState, t: Token, now: int, verifyExp: bool): (r: Option<Payload>)
    ensures r.Some? <==> && SignedByRetained(st, t) && OtherClaimsPass(t.payload, now)
                         && (verifyExp ==> ExpClaimLive(t.payload, now))
    ensures r.Some? ==> r.value == t.payload
  {
    var first := Decode(t, st.current, now, verifyExp);
    if first.Some? then first else DecodeAny(t, st.previous, now, verifyExp)
  }

  // ---------------------------------------------------------------------------
  // Verification
  // ---------------------------------------------------------------------------

  predicate IsAccess(p: Payload) {
    Get(p, "type", JNull) == JStr("access")
  }

  /** An integer `exp` claim that lies strictly after `now`. */
  predicate ExpiresAfter(p: Payload, now: int) {
    "exp" in p && p["exp"].JInt? && now < p["exp"].n
  }

  /**
   * What `verify_access_token` accepts, stated independently of how it checks:
   * neither listed, signed by a retained key, passing PyJWT's other claim checks, an
   * access token, and not yet expired.
   */
  predicate Accepts(st: AuthState, t: Token, now: int) {
    && t !in st.blacklist
    && t !in st.revoked
    && SignedByRetained(st, t)
    && OtherClaimsPass(t.payload, now)
    && IsAccess(t.payload)
    && ExpiresAfter(t.payload, now)
  }

  /** `_validate_token_payload`: the type tag, then the expiry (a missing or non-integer `exp` raises and yields nothing). */
  function ValidatePayload(p: Payload, now: int): (r: Option<Payload>)
    ensures r.Some? <==> IsAccess(p) && "exp" in p && p["exp"].JInt? && !(now > p["exp"].n)
    ensures r.Some? ==> r.value == p
  {
    if Get(p, "type", JNull) != JStr("access") then None
    else if "exp" !in p then None
    else match p["exp"]
      case JInt(e) => if now > e then None else Some(p)
      case _ => None
  }

  /** `verify_access_token`: the two sets first, then the current key, then the previous keys, then the payload checks. */
  function VerifyAccessToken(st: AuthState, t: Token, now: int): (r: Option<Payload>)
    ensures r.Some? <==> Accepts(st, t, now)
    ensures r.Some? ==> t.Signed? && r.value == t.payload
  {
    if t in st.blacklist then None
    else if t in st.revoked then None
    else match Decode(t, st.current, now, true)
      case Some(p) => ValidatePayload(p, now)
      case None =>
        match DecodeAny(t, st.previous, now, true)
        case Some(p) => ValidatePayload(p, now)
        case None => None
  }

  /** Listed tokens are refused whatever they decode to: the set lookups come before any decoding. */
  lemma ListedNeverVerifies(st: AuthState, t: Token, now: int)
    requires t in st.blacklist || t in st.revoked
    ensures VerifyAccessToken(st, t, now).None?
  {
  }

  // ---------------------------------------------------------------------------
  // Issuing
  // ---------------------------------------------------------------------------

  /** The claims `create_access_token` writes over whatever the caller supplied. */
  const ForcedClaims: set<string> := {"exp", "iat", "jti", "type"}

  /** Why issuing can fail. */
  datatype IssueError = NameError(name: string)

  /**
   * `create_access_token` as written: a static method whose last step reads
   * `self.current_secret_key`, so every call raises before a token exists.
   */
  function IssueAsWritten(st: AuthState, cfg: Config, claims: Payload, now: int,
                          expiresDelta: Option<int>, digest: string): (r: Result<Token, IssueError>)
    ensures r == Failure(NameError("self"))
  {
    Failure(NameError("self"))
  }

  /** The lifetime of a new token: a truthy delta, else the configured default (a zero delta is falsy). */
  function Lifetime(cfg: Config, expiresDelta: Option<int>): int {
    if expiresDelta.Some? && expiresDelta.value != 0 then expiresDelta.value
    else cfg.accessTokenExpireMinutes * 60
  }

  /**
   * `create_access_token` signing with the manager's current key, as its callers intend:
   * the caller's claims are copied, then `exp`, `iat`, `jti` and `type` are forced.
   * `digest` stands for the MD5 hex digest of the subject and the issue time.
   */
  function IssueAccessToken(st: AuthState, cfg: Config, claims: Payload, now: int,
                            expiresDelta: Option<int>, digest: string): (t: Token)
    ensures t.Signed? && t.key == st.current
    ensures t.payload.Keys == claims.Keys + ForcedClaims
    ensures forall c :: c in claims && c !in ForcedClaims ==> t.payload[c] == claims[c]
    ensures t.payload["type"] == JStr("access")
    ensures t.payload["iat"] == JInt(now)
    ensures t.payload["jti"] == JStr("token_" + digest)
    ensures expiresDelta.Some? && expiresDelta.value != 0 ==> t.payload["exp"] == JInt(now + expiresDelta.value)
    ensures expiresDelta.None? || expiresDelta.value == 0 ==>
              t.payload["exp"] == JInt(now + cfg.accessTokenExpireMinutes * 60)
  {
    var forced := map[
      "exp" := JInt(now + Lifetime(cfg, expiresDelta)),
      "iat" := JInt(now),
      "jti" := JStr("token_" + digest),
      "type" := JStr("access")];
    Signed(claims + forced, st.current)
  }

  /**
   * A token just issued with a positive lifetime verifies at every instant before its
   * expiry and at none from then on, unless it is already on one of the two lists or the
   * caller's claims carry an audience or a `nbf` PyJWT refuses at that instant.
   */
  lemma IssuedTokenVerifies(st: AuthState, cfg: Config, claims: Payload, now: int,
                            expiresDelta: Option<int>, digest: string, later: int)
    requires Lifetime(cfg, expiresDelta) > 0
    requires IssueAccessToken(st, cfg, claims, now, expiresDelta, digest) !in st.blacklist + st.revoked
    ensures var t := IssueAccessToken(st, cfg, claims, now, expiresDelta, digest);
            VerifyAccessToken(st, t, later).Some? <==>
              later < now + Lifetime(cfg, expiresDelta) && NoAudience(claims) && NotBeforePassed(claims, later)
  {
    var t := IssueAccessToken(st, cfg, claims, now, expiresDelta, digest);
    assert t.payload["exp"] == JInt(now + Lifetime(cfg, expiresDelta));
    assert "aud" !in ForcedClaims && "nbf" !in ForcedClaims;
    assert NoAudience(t.payload) <==> NoAudience(claims);
    assert NotBeforePassed(t.payload, later) <==> NotBeforePassed(claims, later);
  }

  /**
   * The issuing flaw: where the intended method hands out a token that verifies at once,
   * the method as written hands out nothing.
   */
  lemma IssueAsWrittenYieldsNoToken(st: AuthState, cfg: Config, claims: Payload, now: int,
                                    expiresDelta: Option<int>, digest: string)
    requires Lifetime(cfg, expiresDelta) > 0
    requires IssueAccessToken(st, cfg, claims, now, expiresDelta, digest) !in st.blacklist + st.revoked
    ensures IssueAsWritten(st, cfg, claims, now, expiresDelta, digest).Failure?
    ensures NoAudience(claims) && NotBeforePassed(claims, now) ==>
              VerifyAccessToken(st, IssueAccessToken(st, cfg, claims, now, expiresDelta, digest), now).Some?
  {
    IssuedTokenVerifies(st, cfg, claims, now, expiresDelta, digest, now);
  }

  // ---------------------------------------------------------------------------
  // Revocation, blacklisting and the cleanup steps
  // ---------------------------------------------------------------------------

  /** The time at which the task `_schedule_token_cleanup` discards a token, if it ever does. */
  function CleanupTime(p: Payload, now: int): (at: Option<int>)
    ensures at.Some? ==> now < at.value
    ensures "exp" !in p ==> (at.Some? <==> now < 0)
    ensures "exp" in p && p["exp"].JInt? ==> (at.Some? <==> now < p["exp"].n)
    ensures "exp" in p && !p["exp"].JInt? ==> at.None?
  {
    // a missing `exp` counts as time 0; a non-integer one makes the task fail before it waits
    var exp := Get(p, "exp", JInt(0));
    if exp.JInt? && exp.n - now > 0 then Some(exp.n) else None
  }

  datatype RevokeOutcome = RevokeOutcome(state: AuthState, ok: bool, cleanupAt: Option<int>)

  /**
   * `revoke_token`: the token must decode under a retained key, expiry ignored but the
   * other claim checks applied, to a non-empty payload (an empty dict is falsy); then
   * exactly it joins the revoked set.
   */
  function RevokeToken(st: AuthState, t: Token, now: int): (r: RevokeOutcome)
    ensures r.ok <==> SignedByRetained(st, t) && OtherClaimsPass(t.payload, now) && t.payload != map[]
    ensures !r.ok ==> r.state == st && r.cleanupAt.None?
    ensures r.ok ==> r.state == st.(revoked := st.revoked + {t})
    ensures r.ok ==> r.cleanupAt == CleanupTime(t.payload, now)
  {
    var payload := DecodeRetained(st, t, now, false);
    if payload.None? || payload.value == map[] then RevokeOutcome(st, false, None)
    else RevokeOutcome(st.(revoked := st.revoked + {t}), true, CleanupTime(payload.value, now))
  }

  /** The scheduled cleanup firing: that one token leaves the revoked set. */
  function DiscardRevoked(st: AuthState, t: Token): (r: AuthState)
    ensures t !in r.revoked && r.revoked + {t} >= st.revoked && r.revoked <= st.revoked
    ensures r.(revoked := st.revoked) == st
  {
    st.(revoked := st.revoked - {t})
  }

  /**
   * Revocation works even on an expired token, failing only on the other claim checks, and
   * once it works the token is refused until the set forgets it.
   */
  lemma RevokedThenRefused(st: AuthState, t: Token, now: int, later: int)
    requires SignedByRetained(st, t) && t.payload != map[]
    ensures RevokeToken(st, t, now).ok <==> OtherClaimsPass(t.payload, now)
    ensures RevokeToken(st, t, now).ok ==> VerifyAccessToken(RevokeToken(st, t, now).state, t, later).None?
  {
  }

  /**
   * The scheduled cleanup never brings a revoked token back: it fires at the token's
   * own expiry, after which verification refuses the token anyway.
   */
  lemma {:induction false} CleanupNeverReadmits(st: AuthState, t: Token, now: int, later: int)
    requires RevokeToken(st, t, now).ok
    requires RevokeToken(st, t, now).cleanupAt.Some?
    requires later >= RevokeToken(st, t, now).cleanupAt.value
    ensures VerifyAccessToken(DiscardRevoked(RevokeToken(st, t, now).state, t), t, later).None?
  {
    var r := RevokeToken(st, t, now);
    var at := r.cleanupAt.value;
    if "exp" in t.payload {
      assert t.payload["exp"].JInt? && at == t.payload["exp"].n;
    }
    assert !ExpiresAfter(t.payload, later);
  }

  /** `blacklist_token`: the raw string joins the blacklist, with no decoding; it always succeeds. */
  function BlacklistToken(st: AuthState, t: Token): (r: (AuthState, bool))
    ensures r.1
    ensures t in r.0.blacklist && r.0.blacklist - {t} == st.blacklist - {t}
    ensures r.0.(blacklist := st.blacklist) == st
  {
    (st.(blacklist := st.blacklist + {t}), true)
  }

  /** A blacklisted token verifies at no time, until something empties the blacklist. */
  lemma BlacklistedNeverVerifies(st: AuthState, t: Token, now: int)
    ensures VerifyAccessToken(BlacklistToken(st, t).0, t, now).None?
  {
  }

  /** The periodic sweep as written keeps a revoked token only if the CURRENT key decodes it to an unexpired integer `exp`. */
  predicate SweepKeepsAsWritten(st: AuthState, t: Token, now: int) {
    && Decode(t, st.current, now, false).Some?
    && "exp" in t.payload && t.payload["exp"].JInt? && !(now > t.payload["exp"].n)
  }

  /** One iteration of `_periodic_cleanup`: drop expired or current-key-undecodable tokens from the revoked set. */
  function PeriodicSweepAsWritten(st: AuthState, now: int): (r: AuthState)
    ensures r.revoked <= st.revoked
    ensures forall t :: t in st.revoked ==> (t in r.revoked <==> SweepKeepsAsWritten(st, t, now))
    ensures r.(revoked := st.revoked) == st
  {
    st.(revoked := set t | t in st.revoked && SweepKeepsAsWritten(st, t, now))
  }

  /**
   * The sweep as written readmits a token: one revoked while signed by a previous key
   * leaves the revoked set while it is still valid, and verifies again.
   */
  lemma SweepAsWrittenReadmits()
    ensures var p := map["type" := JStr("access"), "exp" := JInt(1000)];
            var t := Signed(p, "k1");
            var st := AuthState("k2", {"k1"}, {t}, {}, 0);
            && VerifyAccessToken(st, t, 10).None?
            && VerifyAccessToken(PeriodicSweepAsWritten(st, 10), t, 10).Some?
  {
    var p := map["type" := JStr("access"), "exp" := JInt(1000)];
    var t := Signed(p, "k1");
    var st := AuthState("k2", {"k1"}, {t}, {}, 0);
    assert !SweepKeepsAsWritten(st, t, 10);
    assert Accepts(PeriodicSweepAsWritten(st, 10), t, 10);
  }

  /** The corrected sweep keeps a revoked token while ANY retained key decodes it to an unexpired integer `exp`. */
  predicate SweepKeeps(st: AuthState, t: Token, now: int) {
    SignedByRetained(st, t) && "exp" in t.payload && t.payload["exp"].JInt? && !(now > t.payload["exp"].n)
  }

  /** The periodic sweep purging only tokens that could no longer verify. */
  function PeriodicSweep(st: AuthState, now: int): (r: AuthState)
    ensures r.revoked <= st.revoked
    ensures forall t :: t in st.revoked ==> (t in r.revoked <==> SweepKeeps(st, t, now))
    ensures r.(revoked := st.revoked) == st
  {
    st.(revoked := set t | t in st.revoked && SweepKeeps(st, t, now))
  }

  /** After the corrected sweep, no revoked token verifies at the sweep's time or later. */
  lemma SweepNeverReadmits(st: AuthState, t: Token, now: int, later: int)
    requires t in st.revoked
    requires now <= later
    ensures VerifyAccessToken(PeriodicSweep(st, now), t, later).None?
  {
    var r := PeriodicSweep(st, now);
    if t !in r.revoked {
      assert !SweepKeeps(st, t, now);
      assert !Accepts(r, t, later);
    }
  }

  // ---------------------------------------------------------------------------
  // Rotation
  // ---------------------------------------------------------------------------

  /**
   * `_rotate_secret_key`: the current key is retired into the previous set, `newKey`
   * (the output of `secrets.token_urlsafe`) becomes current, and when the previous set
   * is over the limit its lexicographically smallest key is discarded. Both token sets
   * are emptied, which forces every client to authenticate again.
   */
  ghost function Rotate(st: AuthState, cfg: Config, newKey: Key, now: int): (r: AuthState)
    ensures r.current == newKey && r.lastRotation == now
    ensures r.revoked == {} && r.blacklist == {}
    ensures r.previous <= st.previous + {st.current}
    ensures Bounded(st, cfg) ==> Bounded(r, cfg)
    ensures |st.previous + {st.current}| <= cfg.maxPreviousKeys ==> r.previous == st.previous + {st.current}
    ensures |st.previous + {st.current}| > cfg.maxPreviousKeys ==>
              |r.previous| == |st.previous + {st.current}| - 1
    ensures forall gone, kept :: gone in st.previous + {st.current} && gone !in r.previous && kept in r.previous ==>
              Below(gone, kept)
  {
    var pool := st.previous + {st.current};
    var kept := if |pool| > cfg.maxPreviousKeys then pool - {Smallest(pool)} else pool;
    AuthState(newKey, kept, {}, {}, now)
  }

  /** The just-retired key stays usable unless it is the smallest key of an overfull set. */
  lemma RetiredKeySurvives(st: AuthState, cfg: Config, newKey: Key, now: int)
    ensures var pool := st.previous + {st.current};
            st.current !in Rotate(st, cfg, newKey, now).previous <==>
              |pool| > cfg.maxPreviousKeys && Smallest(pool) == st.current
  {
  }

  /**
   * Eviction is by name, not age: retiring "a" into {"b", "c", "d"} with the default limit
   * of three discards "a" itself, so a token signed a moment before the rotation stops
   * verifying after a single rotation.
   */
  lemma RotationCanEvictRetiredKey()
    ensures var p := map["type" := JStr("access"), "exp" := JInt(100)];
            var t := Signed(p, "a");
            var st := AuthState("a", {"b", "c", "d"}, {}, {}, 0);
            && VerifyAccessToken(st, t, 1).Some?
            && VerifyAccessToken(Rotate(st, Defaults, "e", 1), t, 1).None?
  {
    var pool: set<string> := {"a", "b", "c", "d"};
    assert Below("a", "b") && Below("a", "c") && Below("a", "d");
    SmallestUnique(pool, "a");
    var st := AuthState("a", {"b", "c", "d"}, {}, {}, 0);
    assert |pool| == 4;
    assert st.previous + {st.current} == pool;
  }

  /**
   * Rotation empties the blacklist: a blacklisted token signed by the key being
   * retired verifies again afterwards, provided that key is not the one evicted.
   */
  lemma RotationForgivesBlacklist(st: AuthState, cfg: Config, t: Token, newKey: Key, now: int)
    requires t in st.blacklist
    requires t.Signed? && t.key == st.current
    requires IsAccess(t.payload) && ExpiresAfter(t.payload, now) && OtherClaimsPass(t.payload, now)
    requires st.current in Rotate(st, cfg, newKey, now).previous
    ensures VerifyAccessToken(st, t, now).None?
    ensures VerifyAccessToken(Rotate(st, cfg, newKey, now), t, now).Some?
  {
  }

  datatype RotationInfo = RotationInfo(
    lastRotation: int,
    nextRotation: int,
    rotationIntervalHours: int,
    previousKeysCount: nat,
    totalKeysManaged: nat)

  /** `get_key_rotation_info` without the key-hash field. */
  function GetKeyRotationInfo(st: AuthState, cfg: Config): (info: RotationInfo)
    ensures info.lastRotation == st.lastRotation
    ensures info.nextRotation - info.lastRotation == cfg.rotationIntervalHours * 3600
    ensures info.rotationIntervalHours == cfg.rotationIntervalHours
    ensures info.totalKeysManaged == info.previousKeysCount + 1 == |st.previous| + 1
    ensures Bounded(st, cfg) ==> info.totalKeysManaged <= cfg.maxPreviousKeys + 1
  {
    var interval := cfg.rotationIntervalHours * 60 * 60;
    RotationInfo(st.lastRotation, st.lastRotation + interval, interval / 3600,
                 |st.previous|, |st.previous| + 1)
  }

  // ---------------------------------------------------------------------------
  // DID signatures and the connection auth gate
  // ---------------------------------------------------------------------------

  /** The text a DID signature covers. */
  function SignedText(did: string, timestamp: string): string {
    did + ":" + timestamp
  }

  /** `create_did_signature`: the HMAC-SHA256 hex digest, with `mac` standing for the primitive. */
  function CreateDidSignature(did: string, timestamp: string, secret: Key,
                              mac: (Key, string) -> string): string {
    mac(secret, SignedText(did, timestamp))
  }

  /** `verify_did_signature`: recompute and compare (`compare_digest` is equality on the two strings). */
  function VerifyDidSignature(did: string, timestamp: string, signature: string, secret: Key,
                              mac: (Key, string) -> string): (ok: bool)
    ensures ok <==> signature == mac(secret, did + ":" + timestamp)
  {
    signature == CreateDidSignature(did, timestamp, secret, mac)
  }

  /** A signature made with a key verifies with that key. */
  lemma SignatureRoundTrip(did: string, timestamp: string, secret: Key, mac: (Key, string) -> string)
    ensures VerifyDidSignature(did, timestamp, CreateDidSignature(did, timestamp, secret, mac), secret, mac)
  {
  }

  /** Python truthiness of an optional query parameter. */
  predicate Given(s: Option<string>) {
    s.Some? && s.value != ""
  }

  predicate TokenGiven(t: Option<Token>) {
    t.Some? && t.value != Unsigned("")
  }

  /** The signature path: a parsable timestamp at most five minutes old, and the HMAC under the current key. */
  predicate SignatureAccepted(st: AuthState, did: string, signature: string, timestamp: string, now: int,
                              parseTime: string -> Option<int>, mac: (Key, string) -> string) {
    && parseTime(timestamp).Some?
    && now - parseTime(timestamp).value <= SignatureWindow
    && signature == mac(st.current, did + ":" + timestamp)
  }

  /**
   * `authenticate_websocket`. `parseTime` is `datetime.fromisoformat` after the `Z`
   * rewrite, giving None for text it rejects and for offset-aware results (subtracting
   * those from the naive clock raises, and the handler then answers false).
   */
  function AuthenticateWebsocket(st: AuthState, cfg: Config, did: string, token: Option<Token>,
                                 signature: Option<string>, timestamp: Option<string>, now: int,
                                 parseTime: string -> Option<int>, mac: (Key, string) -> string): (ok: bool)
    ensures !StartsWith(did, "did:") ==> !ok
    ensures StartsWith(did, "did:") && TokenGiven(token) ==>
              (ok <==> Accepts(st, token.value, now) && Get(token.value.payload, "did", JNull) == JStr(did))
    ensures StartsWith(did, "did:") && !TokenGiven(token) && Given(signature) && Given(timestamp) ==>
              (ok <==> SignatureAccepted(st, did, signature.value, timestamp.value, now, parseTime, mac))
    ensures StartsWith(did, "did:") && !TokenGiven(token) && !(Given(signature) && Given(timestamp)) ==>
              ok == cfg.debug
  {
    if !StartsWith(did, "did:") then false
    else if TokenGiven(token) then
      match VerifyAccessToken(st, token.value, now)
      case None => false
      case Some(payload) => Get(payload, "did", JNull) == JStr(did)
    else if Given(signature) && Given(timestamp) then
      match parseTime(timestamp.value)
      case None => false
      case Some(ts) =>
        if now - ts > SignatureWindow then false
        else VerifyDidSignature(did, timestamp.value, signature.value, st.current, mac)
    else cfg.debug
  }

  /** The signature path never looks at the revoked set or the blacklist. */
  lemma SignaturePathIgnoresTokenSets(st: AuthState, cfg: Config, did: string, signature: string,
                                      timestamp: string, now: int, revoked: set<Token>, blacklist: set<Token>,
                                      parseTime: string -> Option<int>, mac: (Key, string) -> string)
    requires Given(Some(signature)) && Given(Some(timestamp))
    ensures AuthenticateWebsocket(st, cfg, did, None, Some(signature), Some(timestamp), now, parseTime, mac)
         == AuthenticateWebsocket(st.(revoked := revoked, blacklist := blacklist), cfg, did, None,
                                  Some(signature), Some(timestamp), now, parseTime, mac)
  {
  }

  /**
   * A token issued for a DID admits that DID at the gate until it expires, and from then
   * on the gate refuses it, whatever signature accompanies it.
   */
  lemma IssuedTokenAdmits(st: AuthState, cfg: Config, did: string, claims: Payload, now: int,
                          expiresDelta: Option<int>, digest: string, later: int,
                          signature: Option<string>, timestamp: Option<string>,
                          parseTime: string -> Option<int>, mac: (Key, string) -> string)
    requires StartsWith(did, "did:")
    requires "did" in claims && claims["did"] == JStr(did)
    requires Lifetime(cfg, expiresDelta) > 0
    requires IssueAccessToken(st, cfg, claims, now, expiresDelta, digest) !in st.blacklist + st.revoked
    ensures var t := IssueAccessToken(st, cfg, claims, now, expiresDelta, digest);
            (AuthenticateWebsocket(st, cfg, did, Some(t), signature, timestamp, later, parseTime, mac)
             <==> later < now + Lifetime(cfg, expiresDelta) && NoAudience(claims) && NotBeforePassed(claims, later))
  {
    var t := IssueAccessToken(st, cfg, claims, now, expiresDelta, digest);
    IssuedTokenVerifies(st, cfg, claims, now, expiresDelta, digest, later);
    assert "did" !in ForcedClaims;
    assert t != Unsigned("");
  }
}

=== FILE: endpoint.dfy ===
/**
 * The websocket handler (`websocket_endpoint`): the auth and connect steps with their
 * close codes, the receive loop that maps each inbound envelope to a reply and a
 * heartbeat refresh, and the final disconnect. The auth verdict and the transport's
 * successes are inputs; the registry is the one of module Registry.
 */
module Endpoint {
  import opened Wrappers
  import opened Json
  import opened Registry

  /** Close code after an authentication failure (policy violation). */
  const PolicyViolation := 1008
  /** Close code after a connect failure or an error inside the loop. */
  const InternalError := 1011

  /** One received text frame: `json.loads` either failed or produced a value. */
  datatype Frame = Malformed | Parsed(value: Json)

  /**
   * One frame as it arrived, when, and whether the reply to it (if any) reached the peer.
   * A send that raises ends the loop like any other error inside it.
   */
  datatype Received = Received(frame: Frame, at: int, delivered: bool)

  /** What the loop does with one frame: reply and/or refresh, or leave the loop on an exception. */
  datatype Step = Handled(reply: Option<Json>, refresh: bool) | Crash

  function Envelope(kind: string, data: Json): Json {
    JObj(map["type" := JStr(kind), "data" := data])
  }

  /** The reply to text that is not JSON. */
  const InvalidJsonReply := Envelope("error", JObj(map["message" := JStr("Invalid JSON format"), "timestamp" := JNull]))

  /** The message's type field, the string "unknown" when it has none. */
  function TypeOf(o: Object): Json {
    Get(o, "type", JStr("unknown"))
  }

  /** The message's data field, an empty object when it has none. */
  function DataOf(o: Object): Json {
    Get(o, "data", JObj(map[]))
  }

  /** Types whose handler reads `data.timestamp`, which raises unless `data` is an object. */
  predicate ReadsDataTimestamp(o: Object) {
    TypeOf(o) == JStr("ping") || TypeOf(o) == JStr("status")
  }

  /** The `type` field of an outbound envelope. */
  function ReplyKind(reply: Json): Json {
    if reply.JObj? then Get(reply.fields, "type", JNull) else JNull
  }

  /** The message-type dispatch inside the receive loop. */
  function Dispatch(did: Identity, frame: Frame): (s: Step)
    ensures frame.Malformed? ==> s == Handled(Some(InvalidJsonReply), false)
    ensures s.Crash? <==>
              frame.Parsed? && (!frame.value.JObj? ||
                                (ReadsDataTimestamp(frame.value.fields) && !DataOf(frame.value.fields).JObj?))
    ensures s.Handled? ==> (s.refresh <==> s.reply.None?)
    ensures s.Handled? && s.refresh <==>
              frame.Parsed? && frame.value.JObj? && TypeOf(frame.value.fields) == JStr("heartbeat")
    ensures s.Handled? && s.reply.Some? ==>
              ReplyKind(s.reply.value) in {JStr("pong"), JStr("status"), JStr("echo"), JStr("error")}
  {
    match frame
    case Malformed => Handled(Some(InvalidJsonReply), false)
    case Parsed(v) =>
      if !v.JObj? then Crash   // `message.get` on a non-object raises
      else
        var msg := v.fields;
        var kind := TypeOf(msg);
        if kind == JStr("heartbeat") then Handled(None, true)
        else if kind == JStr("ping") then
          var data := DataOf(msg);
          if !data.JObj? then Crash
          else Handled(Some(Envelope("pong", JObj(map["timestamp" := Get(data.fields, "timestamp", JNull)]))), false)
        else if kind == JStr("status") then
          var data := DataOf(msg);
          if !data.JObj? then Crash
          else Handled(Some(Envelope("status", JObj(map[
                 "connected" := JBool(true),
                 "did" := JStr(did),
                 "timestamp" := Get(data.fields, "timestamp", JNull)]))), false)
        else
          Handled(Some(JObj(map["type" := JStr("echo"), "data" := DataOf(msg), "timestamp" := Get(msg, "timestamp", JNull)])), false)
  }

  /** A ping carrying `ts` in its data is answered by a pong carrying the same `ts`. */
  lemma PingEchoesTimestamp(did: Identity, ts: Json, extra: Object)
    requires "type" !in extra && "data" !in extra
    ensures var ping := JObj(extra + map["type" := JStr("ping"), "data" := JObj(map["timestamp" := ts])]);
            Dispatch(did, Parsed(ping)) == Handled(Some(Envelope("pong", JObj(map["timestamp" := ts]))), false)
  {
  }

  /** A status request is answered with `connected: true`, the connection's own DID and the request's timestamp. */
  lemma StatusReportsConnection(did: Identity, data: Object)
    ensures var status := JObj(map["type" := JStr("status"), "data" := JObj(data)]);
            Dispatch(did, Parsed(status)) == Handled(Some(Envelope("status", JObj(map[
              "connected" := JBool(true), "did" := JStr(did), "timestamp" := Get(data, "timestamp", JNull)]))), false)
  {
  }

  /**
   * Any other or missing type is echoed: the data (an empty object when absent) and the
   * top-level timestamp come back under type `echo`.
   */
  lemma OthersEchoed(did: Identity, msg: Object)
    requires TypeOf(msg) !in {JStr("heartbeat"), JStr("ping"), JStr("status")}
    ensures Dispatch(did, Parsed(JObj(msg))).Handled?
    ensures var reply := Dispatch(did, Parsed(JObj(msg))).reply;
            && reply.Some? && reply.value.JObj?
            && reply.value.fields == map["type" := JStr("echo"), "data" := DataOf(msg),
                                         "timestamp" := Get(msg, "timestamp", JNull)]
            && ("data" !in msg ==> reply.value.fields["data"] == JObj(map[]))
  {
  }

  datatype LoopResult = LoopResult(reg: Registry, replies: seq<Json>, crashed: bool)

  /** Handling the frame raises inside the loop: its dispatch fails, or the send of its reply does. */
  predicate Fails(did: Identity, f: Received) {
    match Dispatch(did, f.frame)
    case Crash => true
    case Handled(reply, _) => reply.Some? && !f.delivered
  }

  /** A frame whose type is `heartbeat`. */
  predicate IsHeartbeat(f: Frame) {
    f.Parsed? && f.value.JObj? && TypeOf(f.value.fields) == JStr("heartbeat")
  }

  /** The replies the peer receives: those of the frames before the first failing one, in frame order. */
  function HandledReplies(did: Identity, frames: seq<Received>): seq<Json>
    decreases |frames|
  {
    if frames == [] || Fails(did, frames[0]) then []
    else
      var reply := Dispatch(did, frames[0].frame).reply;
      (if reply.Some? then [reply.value] else []) + HandledReplies(did, frames[1..])
  }

  /**
   * The receive loop over the frames that arrive before the client goes away. It stops
   * at the first frame whose handling raises; heartbeats refresh the connection's
   * `last_heartbeat` and nothing else changes in the registry.
   */
  function RunFrames(reg: Registry, did: Identity, frames: seq<Received>): (l: LoopResult)
    ensures l.reg.active == reg.active && l.reg.meta.Keys == reg.meta.Keys
    ensures forall d :: d in reg.meta && d != did ==> l.reg.meta[d] == reg.meta[d]
    ensures forall d :: d in reg.meta ==>
              l.reg.meta[d].connectedAt == reg.meta[d].connectedAt && l.reg.meta[d].messageCount == reg.meta[d].messageCount
    ensures |l.replies| <= |frames|
    ensures l.crashed <==> exists i :: 0 <= i < |frames| && Fails(did, frames[i])
    ensures l.replies == HandledReplies(did, frames)
    decreases |frames|
  {
    if frames == [] then LoopResult(reg, [], false)
    else if Fails(did, frames[0]) then LoopResult(reg, [], true)
    else
      var step := Dispatch(did, frames[0].frame);
      var next := if step.refresh then UpdateHeartbeat(reg, did, frames[0].at) else reg;
      var rest := RunFrames(next, did, frames[1..]);
      var sent := if step.reply.Some? then [step.reply.value] else [];
      assert rest.crashed <==> exists i :: 0 <= i < |frames| && Fails(did, frames[i]) by {
        if rest.crashed {
          var j :| 0 <= j < |frames[1..]| && Fails(did, frames[1..][j]);
          assert frames[j + 1] == frames[1..][j];
        }
        if exists i :: 0 <= i < |frames| && Fails(did, frames[i]) {
          var i :| 0 <= i < |frames| && Fails(did, frames[i]);
          assert i != 0;
          assert frames[1..][i - 1] == frames[i];
        }
      }
      LoopResult(rest.reg, sent + rest.replies, rest.crashed)
  }

  /** Text that is not JSON never ends the loop while the error replies get through: each such frame is answered. */
  lemma {:induction false} RepliesMatchFrames(reg: Registry, did: Identity, frames: seq<Received>)
    requires forall i :: 0 <= i < |frames| ==> frames[i].frame.Malformed? && frames[i].delivered
    ensures !RunFrames(reg, did, frames).crashed
    ensures RunFrames(reg, did, frames).replies == seq(|frames|, _ => InvalidJsonReply)
    decreases |frames|
  {
    if frames != [] {
      RepliesMatchFrames(reg, did, frames[1..]);
    }
  }

  /** Without heartbeat frames the loop leaves the registry as it found it. */
  lemma {:induction false} NoHeartbeatNoChange(reg: Registry, did: Identity, frames: seq<Received>)
    requires forall j :: 0 <= j < |frames| ==> !IsHeartbeat(frames[j].frame)
    ensures RunFrames(reg, did, frames).reg == reg
    decreases |frames|
  {
    if frames != [] && !Fails(did, frames[0]) {
      NoHeartbeatNoChange(reg, did, frames[1..]);
    }
  }

  /**
   * The stored `last_heartbeat` is the arrival time of the last heartbeat frame, provided
   * the loop got that far.
   */
  lemma {:induction false} LastHeartbeatStored(reg: Registry, did: Identity, frames: seq<Received>, i: int)
    requires did in reg.meta
    requires 0 <= i < |frames| && IsHeartbeat(frames[i].frame)
    requires forall j :: 0 <= j < i ==> !Fails(did, frames[j])
    requires forall j :: i < j < |frames| ==> !IsHeartbeat(frames[j].frame)
    ensures RunFrames(reg, did, frames).reg.meta[did].lastHeartbeat == frames[i].at
    decreases |frames|
  {
    var step := Dispatch(did, frames[0].frame);
    var next := if step.refresh then UpdateHeartbeat(reg, did, frames[0].at) else reg;
    if i == 0 {
      assert !Fails(did, frames[0]);
      NoHeartbeatNoChange(next, did, frames[1..]);
    } else {
      assert !Fails(did, frames[0]);
      forall j | 0 <= j < i - 1
        ensures !Fails(did, frames[1..][j])
      {
        assert frames[1..][j] == frames[j + 1];
      }
      LastHeartbeatStored(next, did, frames[1..], i - 1);
    }
  }

  datatype Session = Session(reg: Registry, replies: seq<Json>, close: Option<int>)

  /**
   * The handler as written: authenticate, connect, run the loop, and in every case finish
   * with `disconnect(did)`, which removes whatever connection the identity holds then.
   */
  function RunSessionAsWritten(reg: Registry, did: Identity, ws: Socket, now: int, authOk: bool,
                               accepted: bool, welcomed: bool, frames: seq<Received>): (s: Session)
    ensures did !in s.reg.active && did !in s.reg.meta
    ensures !authOk ==> s == Session(Disconnect(reg, did), [], Some(PolicyViolation))
    ensures authOk && !accepted ==> s == Session(Disconnect(reg, did), [], Some(InternalError))
    ensures authOk && accepted ==>
              s.close == (if exists i :: 0 <= i < |frames| && Fails(did, frames[i]) then Some(InternalError) else None)
    ensures authOk && accepted ==> s.replies == HandledReplies(did, frames)
    ensures forall d :: d != did ==> (d in s.reg.active <==> d in reg.active)
    ensures forall d :: d in s.reg.active ==> s.reg.active[d] == reg.active[d]
  {
    if !authOk then Session(Disconnect(reg, did), [], Some(PolicyViolation))
    else
      var c := Connect(reg, did, ws, now, accepted, welcomed);
      if !c.ok then Session(Disconnect(c.reg, did), [], Some(InternalError))
      else
        ConnectEffect(reg, did, ws, now, welcomed);
        var l := RunFrames(c.reg, did, frames);
        Session(Disconnect(l.reg, did), l.replies, if l.crashed then Some(InternalError) else None)
  }

  /**
   * The flaw: a client that fails authentication for an identity still removes that
   * identity's live connection, held by another client, from the registry.
   */
  lemma FailedAuthEvictsLiveConnection()
    ensures var live := Registry(map["did:x" := Socket(1)], map["did:x" := Metadata(0, 0, 1)]);
            var s := RunSessionAsWritten(live, "did:x", Socket(2), 5, false, true, true, []);
            && s.close == Some(PolicyViolation)
            && "did:x" in live.active
            && "did:x" !in s.reg.active
  {
  }

  /** The final disconnect limited to the entry this session registered. */
  function DisconnectOwn(reg: Registry, did: Identity, ws: Socket): (r: Registry)
    ensures did in reg.active && reg.active[did] == ws ==> r == Disconnect(reg, did)
    ensures !(did in reg.active && reg.active[did] == ws) ==> r == reg
  {
    if did in reg.active && reg.active[did] == ws then Disconnect(reg, did) else reg
  }

  /**
   * The same flaw when this session's entry was replaced while it ran: the final
   * disconnect as written removes whichever connection now holds the identity, while the
   * corrected one leaves a connection it did not register alone.
   */
  lemma ReplacedConnectionEvicted(reg: Registry, did: Identity, mine: Socket)
    requires did in reg.active && reg.active[did] != mine
    ensures did !in Disconnect(reg, did).active
    ensures DisconnectOwn(reg, did, mine) == reg
  {
  }

  /**
   * The handler with its final disconnect limited to its own socket: failed auth and
   * failed connects leave the registry as they found it, and a session that connected
   * leaves no entry for its identity behind.
   */
  function RunSession(reg: Registry, did: Identity, ws: Socket, now: int, authOk: bool,
                      accepted: bool, welcomed: bool, frames: seq<Received>): (s: Session)
    ensures !authOk ==> s == Session(reg, [], Some(PolicyViolation))
    ensures authOk && !accepted ==> s == Session(reg, [], Some(InternalError))
    ensures authOk && accepted ==> did !in s.reg.active && did !in s.reg.meta
    ensures authOk && accepted ==>
              s.close == (if exists i :: 0 <= i < |frames| && Fails(did, frames[i]) then Some(InternalError) else None)
    ensures authOk && accepted ==> s.replies == HandledReplies(did, frames)
    ensures forall d :: d != did ==> (d in s.reg.active <==> d in reg.active)
    ensures forall d :: d in s.reg.active ==> s.reg.active[d] == reg.active[d]
    ensures Valid(reg) ==> Valid(s.reg)
  {
    if !authOk then Session(reg, [], Some(PolicyViolation))
    else
      var c := Connect(reg, did, ws, now, accepted, welcomed);
      if !c.ok then Session(reg, [], Some(InternalError))
      else
        ConnectEffect(reg, did, ws, now, welcomed);
        var l := RunFrames(c.reg, did, frames);
        DisconnectIdempotent(l.reg, did);
        Session(DisconnectOwn(l.reg, did, ws), l.replies, if l.crashed then Some(InternalError) else None)
  }

  /** Sessions that get nowhere do not disturb a live connection of the same identity. */
  lemma FailedSessionKeepsLiveConnection(reg: Registry, did: Identity, ws: Socket, now: int,
                                         authOk: bool, accepted: bool, welcomed: bool, frames: seq<Received>)
    requires did in reg.active
    requires !authOk || !accepted
    ensures var s := RunSession(reg, did, ws, now, authOk, accepted, welcomed, frames);
            did in s.reg.active && s.reg.active[did] == reg.active[did]
  {
  }
}

=== FILE: json.dfy ===
/** JSON values as the Python handlers see them after `json.loads`. */
module Json {

  /** Integers stand for JSON numbers; fractional numbers are not modelled. */
  datatype Json =
    | JNull
    | JBool(b: bool)
    | JInt(n: int)
    | JStr(s: string)
    | JArr(items: seq<Json>)
    | JObj(fields: map<string, Json>)

  type Object = map<string, Json>

  /** Python's `dict.get(key, default)`. */
  function Get(o: Object, key: string, default: Json): (v: Json)
    ensures key in o ==> v == o[key]
    ensures key !in o ==> v == default
  {
    if key in o then o[key] else default
  }

  /** Python truthiness of a decoded value: null, false, zero and empty collections are falsy. */
  predicate Truthy(j: Json) {
    match j
    case JNull => false
    case JBool(b) => b
    case JInt(n) => n != 0
    case JStr(s) => s != ""
    case JArr(items) => items != []
    case JObj(fields) => fields != map[]
  }
}

=== FILE: legacy.dfy ===
/**
 * The standalone application module: its message-limit clamp and its simpler
 * connection manager, which keeps one socket per username and nothing else.
 */
module Legacy {
  import opened Wrappers
  import Registry

  type Username = string

  /** The requested limit, 100 when it is missing or falsy, raised to at least 1 and capped at 1000. */
  function SafeLimit(limit: Option<int>): (n: int)
    ensures 1 <= n <= 1000
    ensures limit.None? || limit.value == 0 ==> n == 100
    ensures limit.Some? && limit.value < 0 ==> n == 1
    ensures limit.Some? && limit.value > 1000 ==> n == 1000
    ensures limit.Some? && 1 <= limit.value <= 1000 ==> n == limit.value
  {
    var requested := if limit.Some? && limit.value != 0 then limit.value else 100;
    var atLeastOne := if requested < 1 then 1 else requested;
    if atLeastOne > 1000 then 1000 else atLeastOne
  }

  /** Clamping an already clamped limit changes nothing. */
  lemma SafeLimitIdempotent(limit: Option<int>)
    ensures SafeLimit(Some(SafeLimit(limit))) == SafeLimit(limit)
  {
  }

  type Connections = map<Username, Registry.Socket>

  datatype AcceptFailed = AcceptFailed

  /** `connect`: after a successful accept the new socket simply overwrites any old one, which is not closed. */
  function LegacyConnect(m: Connections, user: Username, ws: Registry.Socket, accepted: bool)
    : (r: Result<Connections, AcceptFailed>)
    ensures !accepted ==> r.Failure?
    ensures accepted ==> r.Success? && r.value.Keys == m.Keys + {user} && r.value[user] == ws
    ensures accepted ==> forall u :: u in m && u != user ==> r.value[u] == m[u]
    ensures accepted ==> |r.value| == |m| + (if user in m then 0 else 1)
  {
    if !accepted then Failure(AcceptFailed)
    else
      var next := m[user := ws];
      assert next.Keys == m.Keys + {user};
      Success(next)
  }

  /** `disconnect`: removes the username if present. */
  function LegacyDisconnect(m: Connections, user: Username): (r: Connections)
    ensures user !in r
    ensures forall u :: u != user ==> (u in r <==> u in m) && (u in r ==> r[u] == m[u])
  {
    if user in m then m - {user} else m
  }

  lemma LegacyDisconnectIdempotent(m: Connections, user: Username)
    ensures LegacyDisconnect(LegacyDisconnect(m, user), user) == LegacyDisconnect(m, user)
  {
  }

  /** `send_personal_message`: the socket the message is written to, if the username is connected; the map never changes. */
  function LegacySendTarget(m: Connections, user: Username): (target: Option<Registry.Socket>)
    ensures target.Some? <==> user in m
    ensures target.Some? ==> target.value == m[user]
  {
    if user in m then Some(m[user]) else None
  }

  /** A connection followed by its disconnect leaves no trace of the username. */
  lemma LegacyConnectThenDisconnect(m: Connections, user: Username, ws: Registry.Socket)
    ensures LegacyConnect(m, user, ws, true).Success?
    ensures LegacyDisconnect(LegacyConnect(m, user, ws, true).value, user) == LegacyDisconnect(m, user)
    ensures LegacySendTarget(LegacyConnect(m, user, ws, true).value, user) == Some(ws)
  {
    var next := LegacyConnect(m, user, ws, true).value;
    assert LegacyDisconnect(next, user).Keys == LegacyDisconnect(m, user).Keys;
  }
}

=== FILE: messages.dfy ===
/**
 * `MessageService.get_user_messages`: the slice of the store's answer that forms one page,
 * and the response around it. The store is the user's history, newest first, read with an
 * SQL `LIMIT` of `limit + offset`.
 */
module MessageService {
  import opened Wrappers

  datatype StoredMessage = StoredMessage(
    id: string,
    senderDid: string,
    recipientDid: string,
    encryptedKey: string,
    iv: string,
    ciphertext: string,
    timestamp: int)

  datatype MessageList = MessageList(messages: seq<StoredMessage>, total: int, limit: int, offset: int)

  function Min(a: int, b: int): int {
    if a <= b then a else b
  }

  /** Python's `s[i:]`. */
  function SliceFrom<T>(s: seq<T>, i: int): (r: seq<T>)
    ensures i >= 0 ==> r == s[Min(i, |s|)..]
    ensures i < 0 ==> r == s[Min(|s|, if |s| + i < 0 then 0 else |s| + i)..]
  {
    if i >= 0 then s[Min(i, |s|)..]
    else if |s| + i < 0 then s
    else s[|s| + i..]
  }

  /** Python's `s[:j]`. */
  function SliceTo<T>(s: seq<T>, j: int): (r: seq<T>)
    ensures j >= 0 ==> r == s[..Min(j, |s|)]
    ensures j < 0 ==> |r| == (if |s| + j < 0 then 0 else |s| + j)
  {
    if j >= 0 then s[..Min(j, |s|)]
    else if |s| + j < 0 then []
    else s[..|s| + j]
  }

  /** The store's query `... ORDER BY timestamp DESC LIMIT n`; SQLite reads a negative limit as none. */
  function Fetch(history: seq<StoredMessage>, n: int): (r: seq<StoredMessage>)
    ensures n >= 0 ==> r == history[..Min(n, |history|)]
    ensures n < 0 ==> r == history
  {
    if n < 0 then history else history[..Min(n, |history|)]
  }

  /** Why the store's query fails. */
  datatype QueryError = AttributeError(name: string)

  /**
   * The query as written: it filters on `sender_did` and `recipient_did`, which the
   * message table does not declare (its columns are `sender` and `recipient`), so
   * building the statement raises before the store is read.
   */
  function FetchAsWritten(history: seq<StoredMessage>, n: int): (r: Result<seq<StoredMessage>, QueryError>)
    ensures r == Failure(AttributeError("sender_did"))
  {
    Failure(AttributeError("sender_did"))
  }

  /** Where the intended query returns the newest message, the query as written returns nothing at all. */
  lemma FetchAsWrittenLosesHistory(history: seq<StoredMessage>, n: int)
    requires history != [] && n >= 1
    ensures FetchAsWritten(history, n).Failure?
    ensures Fetch(history, n) != [] && Fetch(history, n)[0] == history[0]
  {
  }

  /** The page: drop `offset` items when it is positive, keep the first `limit`, echo the arguments. */
  function GetUserMessages(fetched: seq<StoredMessage>, limit: int, offset: int): (r: MessageList)
    ensures r.total == |r.messages|
    ensures r.limit == limit && r.offset == offset
    ensures limit >= 0 ==> |r.messages| <= limit
    ensures limit >= 0 && offset >= 0 ==>
              r.messages == fetched[Min(offset, |fetched|)..Min(offset + limit, |fetched|)]
    ensures limit >= 0 && offset <= 0 ==> r.messages == fetched[..Min(limit, |fetched|)]
  {
    var afterOffset := if offset > 0 then SliceFrom(fetched, offset) else fetched;
    var page := SliceTo(afterOffset, limit);
    MessageList(page, |page|, limit, offset)
  }

  /** The service against the store: the page is the window `[offset, offset + limit)` of the history. */
  function PageOf(history: seq<StoredMessage>, limit: int, offset: int): MessageList {
    GetUserMessages(Fetch(history, limit + offset), limit, offset)
  }

  /**
   * With the arguments the endpoint admits (limit at least 1, offset at least 0), a page
   * is the history's window starting at `offset`, and consecutive pages tile the history.
   */
  lemma PagesTile(history: seq<StoredMessage>, a: int, b: int)
    requires a >= 1 && b >= 1
    ensures PageOf(history, a, 0).messages == history[..Min(a, |history|)]
    ensures PageOf(history, b, a).messages == history[Min(a, |history|)..Min(a + b, |history|)]
    ensures PageOf(history, a, 0).messages + PageOf(history, b, a).messages == PageOf(history, a + b, 0).messages
  {
    var n := |history|;
    assert history[..Min(a, n)] + history[Min(a, n)..Min(a + b, n)] == history[..Min(a + b, n)];
  }

  /** The count endpoint asks for one message, so the count it reports is 0 or 1. */
  lemma MessageCountAtMostOne(history: seq<StoredMessage>)
    ensures PageOf(history, 1, 0).total == (if history == [] then 0 else 1)
  {
  }
}

=== FILE: ratelimit.dfy ===
/**
 * The sliding-window rate limiter of `RateLimitMiddleware`: per client, the times of the
 * requests admitted in the last minute. Times are integer seconds.
 */
module RateLimit {
  import opened Wrappers

  type Client = string

  /** Length of the window in seconds. */
  const Window := 60
  /** The default of the `RATE_LIMIT_PER_MINUTE` setting, which the environment may override. */
  const DefaultLimit := 100

  datatype Limiter = Limiter(limit: int, requests: map<Client, seq<int>>)

  /**
   * The middleware as constructed: the given per-minute limit when it is truthy, otherwise
   * `setting`, the configured `RATE_LIMIT_PER_MINUTE` (`DefaultLimit` unless overridden).
   */
  function NewLimiter(requestsPerMinute: Option<int>, setting: int): (l: Limiter)
    ensures l.requests == map[]
    ensures requestsPerMinute.None? || requestsPerMinute.value == 0 ==> l.limit == setting
    ensures requestsPerMinute.Some? && requestsPerMinute.value != 0 ==> l.limit == requestsPerMinute.value
  {
    var limit := if requestsPerMinute.Some? && requestsPerMinute.value != 0 then requestsPerMinute.value else setting;
    Limiter(limit, map[])
  }

  /** The stored times of a client, empty for one never seen. */
  function History(l: Limiter, c: Client): seq<int> {
    if c in l.requests then l.requests[c] else []
  }

  /** The list comprehension keeping the times less than a window old, in their order. */
  function Recent(ts: seq<int>, now: int): (r: seq<int>)
    ensures forall x :: x in r <==> x in ts && now - x < Window
    ensures |r| <= |ts|
    decreases |ts|
  {
    if ts == [] then []
    else (if now - ts[0] < Window then [ts[0]] else []) + Recent(ts[1..], now)
  }

  /** Pruning keeps every occurrence of a time inside the window and none outside it: repeats count. */
  lemma {:induction false} RecentCounts(ts: seq<int>, now: int)
    ensures forall x :: multiset(Recent(ts, now))[x] == (if now - x < Window then multiset(ts)[x] else 0)
    decreases |ts|
  {
    if ts != [] {
      RecentCounts(ts[1..], now);
      assert ts == [ts[0]] + ts[1..];
    }
  }

  lemma {:induction false} RecentAppend(xs: seq<int>, ys: seq<int>, now: int)
    ensures Recent(xs + ys, now) == Recent(xs, now) + Recent(ys, now)
    decreases |xs|
  {
    if xs == [] {
      assert xs + ys == ys;
    } else {
      assert (xs + ys)[0] == xs[0] && (xs + ys)[1..] == xs[1..] + ys;
      RecentAppend(xs[1..], ys, now);
    }
  }

  /** Pruning at an earlier time and then at a later one is pruning at the later one. */
  lemma {:induction false} RecentTwice(xs: seq<int>, earlier: int, now: int)
    requires earlier <= now
    ensures Recent(Recent(xs, earlier), now) == Recent(xs, now)
    decreases |xs|
  {
    if xs != [] {
      RecentTwice(xs[1..], earlier, now);
      RecentAppend(if earlier - xs[0] < Window then [xs[0]] else [], Recent(xs[1..], earlier), now);
    }
  }

  datatype CheckOutcome = CheckOutcome(limiter: Limiter, allowed: bool)

  /**
   * `_check_rate_limit`: prune the client's times to the window and store the pruned
   * list; refuse when it already holds `limit` times, otherwise append `now` and admit.
   */
  function CheckRateLimit(l: Limiter, c: Client, now: int): (out: CheckOutcome)
    ensures out.limiter.limit == l.limit
    ensures c in out.limiter.requests
    ensures forall d :: d != c ==> (d in out.limiter.requests <==> d in l.requests)
    ensures forall d :: d != c && d in l.requests ==> out.limiter.requests[d] == l.requests[d]
    ensures out.allowed <==> |Recent(History(l, c), now)| < l.limit
    ensures !out.allowed ==> out.limiter.requests[c] == Recent(History(l, c), now)
    ensures out.allowed ==> out.limiter.requests[c] == Recent(History(l, c), now) + [now]
    ensures forall t :: t in out.limiter.requests[c] ==> now - t < Window
    ensures out.allowed ==> |out.limiter.requests[c]| <= l.limit
  {
    var pruned := Recent(History(l, c), now);
    if |pruned| >= l.limit then CheckOutcome(l.(requests := l.requests[c := pruned]), false)
    else CheckOutcome(l.(requests := l.requests[c := pruned + [now]]), true)
  }

  /** `_get_remaining_requests`: what is left of the client's allowance at `now`, never negative. */
  function Remaining(l: Limiter, c: Client, now: int): (n: int)
    ensures c !in l.requests ==> n == l.limit
    ensures c in l.requests ==> n >= 0
    ensures l.limit >= 0 ==> 0 <= n <= l.limit
    ensures c in l.requests && n > 0 ==> CheckRateLimit(l, c, now).allowed
    ensures c in l.requests && n == 0 ==> !CheckRateLimit(l, c, now).allowed
  {
    if c !in l.requests then l.limit
    else
      var recent := Recent(l.requests[c], now);
      if l.limit - |recent| > 0 then l.limit - |recent| else 0
  }

  /**
   * The count that `_get_remaining_requests` reports falls by exactly one with each
   * admitted request (pruning the stored list again at the same instant removes nothing).
   */
  lemma RemainingFallsPerAdmission(l: Limiter, c: Client, now: int)
    requires c in l.requests && CheckRateLimit(l, c, now).allowed
    ensures Remaining(CheckRateLimit(l, c, now).limiter, c, now) == Remaining(l, c, now) - 1
  {
    var pruned := Recent(l.requests[c], now);
    RecentTwice(l.requests[c], now, now);
    RecentAppend(pruned, [now], now);
    assert Recent([now], now) == [now];
  }

  /** Stored lists never exceed the limit once they start within it: a check keeps that bound. */
  lemma CheckKeepsBound(l: Limiter, c: Client, now: int)
    requires forall d :: d in l.requests ==> |l.requests[d]| <= l.limit
    requires l.limit >= 0
    ensures var out := CheckRateLimit(l, c, now);
            forall d :: d in out.limiter.requests ==> |out.limiter.requests[d]| <= l.limit
  {
  }

  datatype Trace = Trace(limiter: Limiter, admitted: seq<int>)

  /** A client's successive checks at the given times, with the times that were admitted. */
  function RunChecks(l: Limiter, c: Client, times: seq<int>): (tr: Trace)
    ensures tr.limiter.limit == l.limit
    ensures |tr.admitted| <= |times|
    ensures forall x :: x in tr.admitted ==> x in times
    decreases |times|
  {
    if times == [] then Trace(l, [])
    else
      var before := RunChecks(l, c, times[..|times| - 1]);
      var now := times[|times| - 1];
      var out := CheckRateLimit(before.limiter, c, now);
      Trace(out.limiter, if out.allowed then before.admitted + [now] else before.admitted)
  }

  predicate NonDecreasing(s: seq<int>) {
    forall i, j :: 0 <= i <= j < |s| ==> s[i] <= s[j]
  }

  /**
   * The sliding-window guarantee: for a new client checked at non-decreasing times, the
   * stored list is exactly the admitted times of the last minute, and there are never
   * more than `limit` of them.
   */
  lemma {:induction false} SlidingWindow(l: Limiter, c: Client, times: seq<int>)
    requires c !in l.requests && l.limit >= 0
    requires NonDecreasing(times) && times != []
    ensures var tr := RunChecks(l, c, times);
            var now := times[|times| - 1];
            && c in tr.limiter.requests
            && tr.limiter.requests[c] == Recent(tr.admitted, now)
            && |Recent(tr.admitted, now)| <= l.limit
    decreases |times|
  {
    var now := times[|times| - 1];
    var init := times[..|times| - 1];
    var before := RunChecks(l, c, init);
    var stored := Recent(before.admitted, now);
    if init == [] {
      assert History(before.limiter, c) == [] == before.admitted;
    } else {
      SlidingWindow(l, c, init);
      var earlier := init[|init| - 1];
      assert earlier <= now;
      RecentTwice(before.admitted, earlier, now);
      assert Recent(History(before.limiter, c), now) == stored;
      assert |stored| <= |Recent(before.admitted, earlier)|;
    }
    assert Recent(History(before.limiter, c), now) == stored;
    RecentAppend(before.admitted, [now], now);
  }
}

=== FILE: registry.dfy ===
/**
 * The live-connection registry (`ConnectionManager`): two maps keyed by identity, one
 * to the socket and one to the connection's metadata. Sockets are opaque handles, and
 * whether a send reaches its peer is an oracle passed in by the caller. Each operation
 * runs as one atomic step; the lock and the background loops are not modelled.
 */
module Registry {
  import opened Wrappers

  type Identity = string

  /** An accepted transport, known only by its identity as an object. */
  datatype Socket = Socket(handle: nat)

  datatype Metadata = Metadata(connectedAt: int, lastHeartbeat: int, messageCount: int)

  datatype Registry = Registry(active: map<Identity, Socket>, meta: map<Identity, Metadata>)

  /** The registry invariant: both maps have the same keys. */
  predicate Valid(r: Registry) {
    r.active.Keys == r.meta.Keys
  }

  const Empty := Registry(map[], map[])

  lemma EmptyValid()
    ensures Valid(Empty) && |Empty.active| == 0
  {
  }

  /** `disconnect`: delete the identity from each map that holds it; never fails. */
  function Disconnect(r: Registry, did: Identity): (r': Registry)
    ensures did !in r'.active && did !in r'.meta
    ensures forall d :: d != did ==> (d in r'.active <==> d in r.active) && (d in r'.meta <==> d in r.meta)
    ensures forall d :: d in r'.active ==> r'.active[d] == r.active[d]
    ensures forall d :: d in r'.meta ==> r'.meta[d] == r.meta[d]
  {
    var active := if did in r.active then r.active - {did} else r.active;
    var meta := if did in r.meta then r.meta - {did} else r.meta;
    Registry(active, meta)
  }

  /** Disconnecting twice is disconnecting once, and the invariant survives it. */
  lemma DisconnectIdempotent(r: Registry, did: Identity)
    ensures Disconnect(Disconnect(r, did), did) == Disconnect(r, did)
    ensures Valid(r) ==> Valid(Disconnect(r, did))
  {
    var once := Disconnect(r, did);
    assert once.active == r.active - {did};
    assert once.meta == r.meta - {did};
  }

  /** The state `connect` leaves behind while it still holds the lock: the new socket replaces any old one. */
  function Admit(r: Registry, did: Identity, ws: Socket, now: int): (r': Registry)
    ensures r'.active.Keys == r.active.Keys + {did} && r'.meta.Keys == r.meta.Keys + {did}
    ensures r'.active[did] == ws
    ensures r'.meta[did].connectedAt == r'.meta[did].lastHeartbeat == now
    ensures r'.meta[did].messageCount == 0
    ensures forall d :: d in r.active && d != did ==> r'.active[d] == r.active[d]
    ensures forall d :: d in r.meta && d != did ==> r'.meta[d] == r.meta[d]
  {
    Registry(r.active[did := ws], r.meta[did := Metadata(now, now, 0)])
  }

  datatype SendOutcome = SendOutcome(reg: Registry, ok: bool)

  /**
   * `send_personal_message`: for a connected identity the message count is bumped before
   * the send; a send that fails disconnects that identity. An absent identity changes nothing.
   */
  function SendPersonal(r: Registry, did: Identity, delivered: bool): (s: SendOutcome)
    ensures s.ok <==> did in r.active && did in r.meta && delivered
    ensures !(did in r.active && did in r.meta) ==> s.reg == r
    ensures s.ok ==> s.reg.active == r.active
    ensures s.ok ==> s.reg.meta.Keys == r.meta.Keys
    ensures s.ok ==> s.reg.meta[did] == r.meta[did].(messageCount := r.meta[did].messageCount + 1)
    ensures s.ok ==> forall d :: d in r.meta && d != did ==> s.reg.meta[d] == r.meta[d]
    ensures did in r.active && did in r.meta && !delivered ==> s.reg == Disconnect(r, did)
  {
    if did in r.active && did in r.meta then
      var m := r.meta[did];
      var bumped := r.(meta := r.meta[did := m.(messageCount := m.messageCount + 1)]);
      if delivered then SendOutcome(bumped, true)
      else SendOutcome(Disconnect(bumped, did), false)
    else SendOutcome(r, false)
  }

  datatype ConnectOutcome = ConnectOutcome(reg: Registry, ok: bool, closed: Option<Socket>)

  /**
   * `connect`: a failed accept changes nothing and answers false. Otherwise any socket
   * already held for the identity is closed (a failing close is only logged), the new one
   * is admitted, and the welcome message is sent through `send_personal_message`.
   */
  function Connect(r: Registry, did: Identity, ws: Socket, now: int,
                   accepted: bool, welcomed: bool): (c: ConnectOutcome)
    ensures !accepted ==> c == ConnectOutcome(r, false, None)
    ensures accepted ==> c.ok
    ensures accepted ==> c.closed == (if did in r.active then Some(r.active[did]) else None)
    ensures accepted ==> c.reg == SendPersonal(Admit(r, did, ws, now), did, welcomed).reg
  {
    if !accepted then ConnectOutcome(r, false, None)
    else
      var closed := if did in r.active then Some(r.active[did]) else None;
      var admitted := Admit(r, did, ws, now);
      ConnectOutcome(SendPersonal(admitted, did, welcomed).reg, true, closed)
  }

  /**
   * What a successful connect leaves: one entry for the identity, holding the new socket,
   * with `connected_at == last_heartbeat == now` and one message counted; or, when the
   * welcome send fails, no entry at all. Every other identity keeps its entry, and `connect`
   * still answers true.
   */
  lemma ConnectEffect(r: Registry, did: Identity, ws: Socket, now: int, welcomed: bool)
    ensures var c := Connect(r, did, ws, now, true, welcomed);
            && c.ok
            && (Valid(r) ==> Valid(c.reg))
            && (welcomed ==> && did in c.reg.active && c.reg.active[did] == ws
                             && c.reg.meta[did] == Metadata(now, now, 1)
                             && |c.reg.active| == |r.active| + (if did in r.active then 0 else 1))
            && (!welcomed ==> did !in c.reg.active && did !in c.reg.meta)
            && (forall d :: d != did ==> (d in c.reg.active <==> d in r.active))
            && (forall d :: d in r.active && d != did ==> c.reg.active[d] == r.active[d])
            && (forall d :: d in r.meta && d != did ==> c.reg.meta[d] == r.meta[d])
  {
    var a := Admit(r, did, ws, now);
    if welcomed {
      var c := Connect(r, did, ws, now, true, welcomed);
      assert c.reg.active == r.active[did := ws];
      if did in r.active {
        assert c.reg.active.Keys == r.active.Keys;
      } else {
        assert c.reg.active.Keys == r.active.Keys + {did};
      }
    }
  }

  /** `_update_heartbeat`: only the `last_heartbeat` of an existing entry moves; an absent identity is a no-op. */
  function UpdateHeartbeat(r: Registry, did: Identity, now: int): (r': Registry)
    ensures r'.active == r.active && r'.meta.Keys == r.meta.Keys
    ensures did in r.meta ==> r'.meta[did] == r.meta[did].(lastHeartbeat := now)
    ensures forall d :: d in r.meta && d != did ==> r'.meta[d] == r.meta[d]
    ensures did !in r.meta ==> r' == r
  {
    if did in r.meta then r.(meta := r.meta[did := r.meta[did].(lastHeartbeat := now)]) else r
  }

  /** A connection is stale once the gap since its last heartbeat exceeds the timeout. */
  predicate Stale(m: Metadata, now: int, timeout: int) {
    now - m.lastHeartbeat > timeout
  }

  /** The identities the stale sweep disconnects. */
  function StaleSet(r: Registry, now: int, timeout: int): set<Identity> {
    set d | d in r.meta && Stale(r.meta[d], now, timeout)
  }

  /** Both maps without the given identities. */
  function DisconnectAll(r: Registry, ids: set<Identity>): (r': Registry)
    ensures r'.active.Keys == r.active.Keys - ids && r'.meta.Keys == r.meta.Keys - ids
    ensures forall d :: d in r'.active ==> r'.active[d] == r.active[d]
    ensures forall d :: d in r'.meta ==> r'.meta[d] == r.meta[d]
  {
    Registry(r.active - ids, r.meta - ids)
  }

  /**
   * `_cleanup_stale_connections`: collect the identities whose heartbeat is older than
   * the timeout, then disconnect each of them.
   */
  method SweepStale(r: Registry, now: int, timeout: int) returns (r': Registry, evicted: set<Identity>)
    ensures evicted == StaleSet(r, now, timeout)
    ensures forall d :: d in r'.meta <==> d in r.meta && !Stale(r.meta[d], now, timeout)
    ensures forall d :: d in r'.meta ==> r'.meta[d] == r.meta[d]
    ensures r'.active.Keys == r.active.Keys - evicted
    ensures forall d :: d in r'.active ==> r'.active[d] == r.active[d]
    ensures Valid(r) ==> Valid(r')
  {
    evicted := {};
    var pending := r.meta.Keys;
    while pending != {}
      invariant pending <= r.meta.Keys
      invariant evicted == set d | d in r.meta.Keys - pending && Stale(r.meta[d], now, timeout)
      decreases pending
    {
      var d :| d in pending;
      if Stale(r.meta[d], now, timeout) {
        evicted := evicted + {d};
      }
      pending := pending - {d};
    }
    r' := r;
    var todo := evicted;
    while todo != {}
      invariant todo <= evicted
      invariant r' == DisconnectAll(r, evicted - todo)
      decreases todo
    {
      var d :| d in todo;
      r' := Disconnect(r', d);
      todo := todo - {d};
    }
  }

  /**
   * Liveness: a fresh connection that never refreshes is stale exactly when the time since
   * it connected exceeds the timeout, and one refreshed within the timeout is never stale.
   */
  lemma HeartbeatKeepsAlive(r: Registry, did: Identity, ws: Socket, connectedAt: int,
                            refreshedAt: int, now: int, timeout: int)
    ensures did in StaleSet(Admit(r, did, ws, connectedAt), now, timeout) <==> now - connectedAt > timeout
    ensures now - refreshedAt <= timeout ==>
              did !in StaleSet(UpdateHeartbeat(Admit(r, did, ws, connectedAt), did, refreshedAt), now, timeout)
  {
  }

  /** Whether broadcast skips `d`: only a truthy (non-empty) excluded identity is skipped. */
  predicate Excluded(exclude: Option<Identity>, d: Identity) {
    exclude.Some? && exclude.value != "" && d == exclude.value
  }

  /** The recipients of a broadcast over `ids` whose send succeeds (`ok`) or fails (`!ok`). */
  function Outcome(ids: set<Identity>, exclude: Option<Identity>, delivers: Identity -> bool, ok: bool): set<Identity> {
    set d | d in ids && !Excluded(exclude, d) && delivers(d) == ok
  }

  lemma OutcomeGrow(done: set<Identity>, d: Identity, exclude: Option<Identity>, delivers: Identity -> bool, ok: bool)
    ensures Outcome(done + {d}, exclude, delivers, ok)
         == Outcome(done, exclude, delivers, ok) + (if !Excluded(exclude, d) && delivers(d) == ok then {d} else {})
  {
    var extra: set<Identity> := if !Excluded(exclude, d) && delivers(d) == ok then {d} else {};
    forall x
      ensures x in Outcome(done + {d}, exclude, delivers, ok) <==> x in Outcome(done, exclude, delivers, ok) + extra
    {
    }
  }

  /** One more identity through the delivery loop: it joins the reached or failed set, or neither when excluded. */
  lemma OutcomeStep(done: set<Identity>, d: Identity, exclude: Option<Identity>, delivers: Identity -> bool,
                    reached: set<Identity>, failed: set<Identity>)
    requires d !in done
    requires reached == Outcome(done, exclude, delivers, true)
    requires failed == Outcome(done, exclude, delivers, false)
    ensures Outcome(done + {d}, exclude, delivers, true)
         == (if !Excluded(exclude, d) && delivers(d) then reached + {d} else reached)
    ensures Outcome(done + {d}, exclude, delivers, false)
         == (if !Excluded(exclude, d) && !delivers(d) then failed + {d} else failed)
    ensures |reached + {d}| == |reached| + 1
  {
    OutcomeGrow(done, d, exclude, delivers, true);
    OutcomeGrow(done, d, exclude, delivers, false);
    assert d !in reached;
  }

  lemma SubsetCard<T>(a: set<T>, b: set<T>)
    requires a <= b
    ensures |a| <= |b|
  {
    assert b == a + (b - a);
  }

  /** The delivered count never exceeds the snapshot, less one when the excluded identity is in it. */
  lemma {:induction false} BroadcastBound(r: Registry, exclude: Option<Identity>, delivers: Identity -> bool)
    ensures |Outcome(r.active.Keys, exclude, delivers, true)|
         <= |r.active| - (if exclude.Some? && Excluded(exclude, exclude.value) && exclude.value in r.active then 1 else 0)
  {
    var reached := Outcome(r.active.Keys, exclude, delivers, true);
    if exclude.Some? && Excluded(exclude, exclude.value) && exclude.value in r.active {
      SubsetCard(reached, r.active.Keys - {exclude.value});
    } else {
      SubsetCard(reached, r.active.Keys);
    }
  }

  /** The delivery loop of a broadcast over the snapshot `ids`. */
  method Deliver(ids: set<Identity>, exclude: Option<Identity>, delivers: Identity -> bool)
    returns (sent: nat, reached: set<Identity>, failed: set<Identity>)
    ensures reached == Outcome(ids, exclude, delivers, true)
    ensures failed == Outcome(ids, exclude, delivers, false)
    ensures sent == |reached|
  {
    sent := 0;
    reached := {};
    failed := {};
    var done := {};
    var pending := ids;
    while pending != {}
      invariant pending <= ids && done == ids - pending
      invariant reached == Outcome(done, exclude, delivers, true)
      invariant failed == Outcome(done, exclude, delivers, false)
      invariant sent == |reached|
      decreases pending
    {
      var d :| d in pending;
      OutcomeStep(done, d, exclude, delivers, reached, failed);
      if !Excluded(exclude, d) {
        if delivers(d) {
          sent := sent + 1;
          reached := reached + {d};
        } else {
          failed := failed + {d};
        }
      }
      done := done + {d};
      pending := pending - {d};
    }
    assert done == ids;
  }

  /**
   * `broadcast_message`: send to every identity of a snapshot except the excluded one,
   * counting the deliveries; afterwards disconnect exactly the identities whose send
   * failed. `delivers` says which sends succeed. Message counts are not touched.
   */
  method Broadcast(r: Registry, exclude: Option<Identity>, delivers: Identity -> bool)
    returns (r': Registry, sent: nat, reached: set<Identity>, failed: set<Identity>)
    ensures reached == Outcome(r.active.Keys, exclude, delivers, true)
    ensures failed == Outcome(r.active.Keys, exclude, delivers, false)
    ensures sent == |reached|
    ensures sent <= |r.active| - (if exclude.Some? && Excluded(exclude, exclude.value) && exclude.value in r.active then 1 else 0)
    ensures r' == DisconnectAll(r, failed)
    ensures Valid(r) ==> Valid(r')
  {
    sent, reached, failed := Deliver(r.active.Keys, exclude, delivers);
    BroadcastBound(r, exclude, delivers);
    r' := DisconnectAll(r, failed);
  }

  /** `get_connection_info`: a copy of the metadata, or nothing for an absent identity. */
  function ConnectionInfo(r: Registry, did: Identity): (info: Option<Metadata>)
    ensures info.Some? <==> did in r.meta
    ensures info.Some? ==> info.value == r.meta[did]
  {
    if did in r.meta then Some(r.meta[did]) else None
  }

  /** `get_connected_users`: under the invariant, exactly the identities that have connection info. */
  function ConnectedUsers(r: Registry): (users: set<Identity>)
    ensures Valid(r) ==> forall d :: d in users <==> ConnectionInfo(r, d).Some?
  {
    r.active.Keys
  }

  /** `get_connection_count`: the number of connected identities. */
  function ConnectionCount(r: Registry): (n: nat)
    ensures n == |ConnectedUsers(r)|
  {
    |r.active|
  }

  /**
   * The registry invariant survives every operation; a registry reached from the empty one
   * by these operations never holds two maps with different keys.
   */
  lemma OperationsPreserveValid(r: Registry, did: Identity, ws: Socket, now: int,
                                accepted: bool, welcomed: bool, delivered: bool)
    requires Valid(r)
    ensures Valid(Connect(r, did, ws, now, accepted, welcomed).reg)
    ensures Valid(Disconnect(r, did))
    ensures Valid(SendPersonal(r, did, delivered).reg)
    ensures Valid(UpdateHeartbeat(r, did, now))
  {
    if accepted {
      ConnectEffect(r, did, ws, now, welcomed);
    }
    DisconnectIdempotent(r, did);
    if did in r.active && !delivered {
      var m := r.meta[did];
      var bumped := r.(meta := r.meta[did := m.(messageCount := m.messageCount + 1)]);
      assert Valid(bumped);
      DisconnectIdempotent(bumped, did);
    }
  }
}

=== FILE: schemas.dfy ===
/** The DID constraints of the request models `KeyExchangeRequest` and `PrivateMessageRequest`. */
module Schemas {
  import opened Wrappers
  import opened Strings

  const MinDidLength := 5
  const MaxDidLength := 255
  const DidPrefix := "did:"

  datatype DidError = TooShort | TooLong | MissingPrefix

  datatype FieldError = FieldError(field: string, error: DidError)

  /** The field constraint (`min_length`, then `max_length`), then the validator's prefix check. */
  function CheckDid(v: string): (e: Option<DidError>)
    ensures e.None? <==> MinDidLength <= |v| <= MaxDidLength && StartsWith(v, DidPrefix)
    ensures |v| < MinDidLength ==> e == Some(TooShort)
    ensures |v| > MaxDidLength ==> e == Some(TooLong)
    ensures MinDidLength <= |v| <= MaxDidLength && !StartsWith(v, DidPrefix) ==> e == Some(MissingPrefix)
  {
    if |v| < MinDidLength then Some(TooShort)
    else if |v| > MaxDidLength then Some(TooLong)
    else if !StartsWith(v, DidPrefix) then Some(MissingPrefix)
    else None
  }

  /** The errors for one DID field, in the form the model reports them. */
  function FieldErrors(field: string, v: string): seq<FieldError> {
    match CheckDid(v)
    case None => []
    case Some(e) => [FieldError(field, e)]
  }

  predicate ValidDid(v: string) {
    CheckDid(v).None?
  }

  /** An accepted DID carries something after its prefix. */
  lemma ValidDidHasSuffix(v: string)
    requires ValidDid(v)
    ensures v[..|DidPrefix|] == DidPrefix && |v| > |DidPrefix|
  {
  }

  datatype KeyExchangeRequest = KeyExchangeRequest(did: string, publicKey: string)

  /** Building a `KeyExchangeRequest`: the DID comes back unchanged or the request is refused. */
  function NewKeyExchangeRequest(did: string, publicKey: string): (r: Result<KeyExchangeRequest, seq<FieldError>>)
    ensures r.Success? <==> ValidDid(did)
    ensures r.Success? ==> r.value == KeyExchangeRequest(did, publicKey)
    ensures r.Failure? ==> |r.error| == 1 && r.error[0].field == "did"
  {
    var errors := FieldErrors("did", did);
    if errors == [] then Success(KeyExchangeRequest(did, publicKey)) else Failure(errors)
  }

  datatype PrivateMessageRequest = PrivateMessageRequest(
    senderDid: string,
    recipientDid: string,
    encryptedKey: string,
    iv: string,
    ciphertext: string)

  /**
   * Building a `PrivateMessageRequest`: both DIDs obey the same rules; every failing
   * field is reported, sender first.
   */
  function NewPrivateMessageRequest(senderDid: string, recipientDid: string, encryptedKey: string,
                                    iv: string, ciphertext: string): (r: Result<PrivateMessageRequest, seq<FieldError>>)
    ensures r.Success? <==> ValidDid(senderDid) && ValidDid(recipientDid)
    ensures r.Success? ==> r.value == PrivateMessageRequest(senderDid, recipientDid, encryptedKey, iv, ciphertext)
    ensures r.Failure? ==> forall e :: e in r.error ==> e.field in {"sender_did", "recipient_did"}
    ensures r.Failure? ==> (!ValidDid(senderDid) <==> exists e :: e in r.error && e.field == "sender_did")
    ensures r.Failure? ==> (!ValidDid(recipientDid) <==> exists e :: e in r.error && e.field == "recipient_did")
  {
    var errors := FieldErrors("sender_did", senderDid) + FieldErrors("recipient_did", recipientDid);
    if errors == [] then Success(PrivateMessageRequest(senderDid, recipientDid, encryptedKey, iv, ciphertext))
    else Failure(errors)
  }

  /** Both request models apply one rule: a message request passes exactly when each of its DIDs would pass a key exchange. */
  lemma OneRuleForBothModels(senderDid: string, recipientDid: string, publicKey: string,
                             encryptedKey: string, iv: string, ciphertext: string)
    ensures NewPrivateMessageRequest(senderDid, recipientDid, encryptedKey, iv, ciphertext).Success?
            <==> NewKeyExchangeRequest(senderDid, publicKey).Success? && NewKeyExchangeRequest(recipientDid, publicKey).Success?
  {
  }
}

=== FILE: strings.dfy ===
/** String helpers with Python's semantics: `str.startswith` and the ordering used by `min`. */
module Strings {

  /** Python's `s.startswith(prefix)`. */
  predicate StartsWith(s: string, prefix: string) {
    prefix <= s
  }

  /** Python's `a < b` on `str`: lexicographic by code point, a proper prefix sorts first. */
  predicate Below(a: string, b: string)
    decreases |a|
  {
    if |a| == 0 then |b| > 0
    else if |b| == 0 then false
    else if a[0] != b[0] then a[0] < b[0]
    else Below(a[1..], b[1..])
  }

  lemma {:induction false} BelowIrreflexive(a: string)
    ensures !Below(a, a)
    decreases |a|
  {
    if |a| > 0 {
      BelowIrreflexive(a[1..]);
    }
  }

  lemma {:induction false} BelowTransitive(a: string, b: string, c: string)
    requires Below(a, b) && Below(b, c)
    ensures Below(a, c)
    decreases |a|
  {
    if |a| > 0 && a[0] == b[0] && b[0] == c[0] {
      BelowTransitive(a[1..], b[1..], c[1..]);
    }
  }

  lemma {:induction false} BelowTotal(a: string, b: string)
    ensures a == b || Below(a, b) || Below(b, a)
    decreases |a|
  {
    if |a| > 0 && |b| > 0 && a[0] == b[0] {
      BelowTotal(a[1..], b[1..]);
      if a[1..] == b[1..] {
        assert a == [a[0]] + a[1..] && b == [b[0]] + b[1..];
      }
    }
  }

  /** The value Python's `min(s)` returns for a non-empty set of strings. */
  ghost function Smallest(s: set<string>): (m: string)
    requires s != {}
    ensures m in s
    ensures forall k :: k in s && k != m ==> Below(m, k)
    decreases s
  {
    var x :| x in s;
    if s == {x} then x
    else
      var rest := Smallest(s - {x});
      BelowTotal(x, rest);
      if Below(x, rest) then
        assert forall k :: k in s - {x} && k != rest ==> Below(x, k) by {
          forall k | k in s - {x} && k != rest
            ensures Below(x, k)
          {
            BelowTransitive(x, rest, k);
          }
        }
        x
      else
        rest
  }

  /** The minimum of a set is the only member below every other member. */
  lemma SmallestUnique(s: set<string>, m: string)
    requires m in s
    requires forall k :: k in s && k != m ==> Below(m, k)
    ensures Smallest(s) == m
  {
    var n := Smallest(s);
    if n != m {
      assert Below(m, n) && Below(n, m);
      BelowTransitive(m, n, m);
      BelowIrreflexive(m);
    }
  }
}

=== FILE: wrappers.dfy ===
/** Failure-compatible result types shared by every module of the model. */
module Wrappers {

  /** Python's `Optional[T]`: `None` or a present value. */
  datatype Option<+T> = None | Some(value: T)

  /** An operation that either produces a value or reports why it could not. */
  datatype Result<+R, +E> = Success(value: R) | Failure(error: E)
}
